=== FILE: README.md ===
# IRMP timer, pin-change and dispatcher logic in Dafny

IRMP receives infrared remote-control frames and IRSND sends them. Both are driven by one
periodic timer interrupt on a microcontroller. This project models the sequential logic around
the protocol decoder (`irmp_ISR`) and encoder (`irsnd_ISR`). It does not model the decoder and
encoder themselves. It proves properties of that logic:

- **Timer2** (`src/IRTimer.hpp`) and **Timer2Legacy** (`src/IRTimer.cpp.h`): how the compare
  value and the prescaler are chosen, with rounding in the newer file and truncation in the
  older one. Also the timer register snapshot taken by `storeIRTimer` and written back by
  `restoreIRTimer`.
- **IsrTick** and **IsrTickLegacy**: the body of the timer interrupt.
  - It either paces the IR carrier and calls the encoder every fourth tick, or it forwards the
    tick to the decoder.
  - When a frame ends, it restores the receive timer.
  - The newer variant drives the carrier level from the parity of the `uint8_t` divider. The
    older variant toggles the pin on every tick.
  - `irsnd_ISR` is an oracle indexed by the call number. Build options are a `Config` value.
- **PinChange** (`src/irmpPinChangeInterrupt.cpp.h`): `irmp_PCI_ISR`.
  - It turns a 32-bit microsecond delta into 64 µs ticks.
  - It adds the ticks to exactly one accumulator.
  - It then makes extra calls to the decoder to simulate the end of a frame. The decoder is a
    parameter `Decoder -> Decoder`, and every call is recorded together with the state it saw.
- **Dispatcher** (`examples/IRDispatcherDemo/IRCommandDispatcher.cpp.h`): the command
  dispatcher of the demo sketch.
  - State: the regular-command lock, the current command, the one-slot rejected command and the
    stop request.
  - The checks of `checkAndCallCommand` run in the source's order.
  - An action is a number of polls of `checkIRInputForAlwaysExecutableCommand`. A poll can
    dispatch a nested command. All polls consume one shared input stream, so the recursion
    terminates.
  - The IRLremote `getIRData` repeat detection for NEC.
- **AttinyTimer1** (`examples/ReceiveAndSend/ATtinyUtils.cpp`): the Timer1 prescaler search
  behind `toneWithTimer1PWM` and `periodicInterruptWithTimer1`. TCCR1 is modelled field by
  field (CTC1, PWM1A, COM1A1..0 and the clock select CS13..10), with `Tccr1Value` giving the
  byte it holds; TIMSK, shared with timer 0, is the set of its bits that are set.
- **IrsndOutput** and **FeedbackLed**: `irsnd_on`/`irsnd_off`, the `irsnd_init` overloads, and
  the polarity rules of the feedback LED.
  - These return the pin operations they perform, as a sequence of `Gpio.Op`.

`Bits` holds the fixed-width integer types (`u8`, `u16`, `u32`), the wrap-around conversions
and a few lemmas about division. `Gpio` holds pin levels and pin operations.

Behaviour of the code worth noting:

- A command equal to the regular command currently running is rejected with
  `FOUND_BUT_REPEAT_NOT_ACCEPTED` (IRCommandDispatcher.cpp.h:193-199).
- A regular command that arrives while the lock is held gets `FOUND_BUT_RECURSIVE_LOCK`
  (IRCommandDispatcher.cpp.h:230).
- The stop request is set or cleared before the lock check (IRCommandDispatcher.cpp.h:203-212).
- The divider of the interrupt in `IRTimer.hpp` is a zero-initialised static (line 910), while the
  one in `IRTimer.cpp.h` starts at 4 (line 562). With the former, the first encoder call comes
  only on the 256th busy tick.

## Model

| member | source | states |
|---|---|---|
| FeedbackLed.LEDFeedback | src/IRFeedbackLed.cpp.h:38-82 | The enabled flag becomes the argument. Enabling with dynamic pins and a nonzero pin makes the pin an output and drives the LED off (HIGH when active-low, else LOW). Pin 0 writes nothing. Fixed-pin builds use LED_BUILTIN. Disabling writes nothing unless the explicit-disable build option makes the pin an input driven LOW. With dynamic pins and pin 0, that option writes nothing either. |
| FeedbackLed.SetFeedbackLED | src/IRFeedbackLed.cpp.h:92-119 | Pin 0 writes nothing. With dynamic pins the level is `!on` when active-low, else `on`. On AVR without dynamic pins `on` is written and the polarity is ignored. Other fixed-pin builds honour the polarity. |
| FeedbackLed.EnableLeavesLedOff | src/IRFeedbackLed.cpp.h:44-53 | Enabling leaves the LED at the same level that switching it off leaves it at. The exception is an active-low LED_BUILTIN on AVR. |
| FeedbackLed.AvrIgnoresBuiltinPolarity | src/IRFeedbackLed.cpp.h:107-108 | On AVR with an active-low built-in LED, enabling drives the LED HIGH (dark), but "off" drives it LOW (lit). |
| IrsndOutput.On | src/irsndArduinoExt.cpp.h:112-138 | When already on, nothing changes and nothing is written. Otherwise the flag is set and the output is driven to its active level. That output write is preceded by exactly the feedback writes that light the LED, and there are none when feedback is disabled. |
| IrsndOutput.Off | src/irsndArduinoExt.cpp.h:145-173 | The mirror case of `On`: when already off, nothing happens. Otherwise the flag is cleared and the output is driven inactive. That output write is preceded by exactly the feedback writes that switch the LED off, and there are none when feedback is disabled. |
| IrsndOutput.FeedbackOps | src/irsndArduinoExt.cpp.h:117-128 | The feedback writes go only to the LED pin and are empty when feedback is disabled. With dynamic pins they are `irmp_irsnd_SetFeedbackLED`. Otherwise LED_BUILTIN is written at its active level for on and its inactive level for off, honouring FEEDBACK_LED_IS_ACTIVE_LOW. |
| IrsndOutput.FeedbackFollowsOutput | src/irsndArduinoExt.cpp.h:112-173 | With feedback enabled and the LED on a pin of its own, `irsnd_on` leaves the LED at its lit level. The following `irsnd_off` leaves it at the opposite level. |
| IrsndOutput.OnIdempotent | src/irsndArduinoExt.cpp.h:115 | A second `irsnd_on` changes nothing and writes nothing. |
| IrsndOutput.OnOffRoundTrip | src/irsndArduinoExt.cpp.h:112-173 | On then off returns to the starting state and leaves the output pin inactive. |
| IrsndOutput.FeedbackOnlyOnTransition | src/irsndArduinoExt.cpp.h:117-129 | Without feedback, the only write is the output pin, and only on a real on/off transition. |
| IrsndOutput.Init | src/irsndArduinoExt.cpp.h:41-63 | Stores the pin and the LED polarity, enables feedback if and only if the LED pin is not 0, and leaves the output pin configured as an output. |
| IrsndOutput.InitWithLed | src/irsndArduinoExt.cpp.h:68-71 | Like `Init`, but keeps the stored LED polarity. With LED pin 0 only the output pin is made an output. Otherwise the LED pin is made an output and switched to its inactive level first. `irsnd_is_on` is untouched. |
| IrsndOutput.InitPinOnly | src/irsndArduinoExt.cpp.h:76-83 | Feedback is enabled if and only if the previously stored LED pin is nonzero. Only afterwards does the LED pin become LED_BUILTIN. The pin written is the previously stored one: with pin 0 only the output pin is configured, otherwise that LED pin is made an output and switched off first. `irsnd_is_on` is untouched. |
| IrsndOutput.InitPinOnlyTwiceEnablesFeedback | src/irsndArduinoExt.cpp.h:76-83 | Two calls of `irsnd_init(pin)` on a board with a built-in LED: the first call leaves feedback disabled and the second enables it. |
| IrsndOutput.InitPinOnlyWithoutFeedback | src/irsndArduinoExt.cpp.h:74-83 | Corrected overload: feedback stays disabled, only the output pin is configured, and LED_BUILTIN is remembered. |
| IrsndOutput.InitPinOnlyWithoutFeedbackRepeatable | src/irsndArduinoExt.cpp.h:74-83 | Calling the corrected overload a second time gives the same result as calling it once. |
| IrsndOutput.InitFixed | src/irsndArduinoExt.cpp.h:89-96 | With fixed pins, only the output pin mode is set and no state changes. |
| Timer2.CompareRounded | src/IRTimer.hpp:223-229 | Prescale 1 is chosen if and only if `F_CPU/F <= 256`, and then the compare value is `F_CPU/F - 1`. Otherwise prescale 8 is chosen and the compare value is the nearest count, bracketed by `(top+1)*F` within `F/2` of `F_CPU/8`. |
| Timer2.CompareRoundedAt16MHz | src/IRTimer.hpp:226-229 | At 16 MHz: 132 for 15 kHz, 52 for 38 kHz and 209 for 76 kHz. |
| Timer2.ReceiveRatesFitRegister | src/irmpconfig.h:52 | For F_CPU from the 8 MHz required at src/IRTimer.hpp:828-830 up to 20 MHz, every receive rate from 10 kHz to 20 kHz uses prescale 8 with a compare value that fits the 8-bit register. |
| Timer2.Init | src/IRTimer.hpp:221-233 | CTC mode, the compare-B interrupt enabled, the counter cleared, and OCR2B equal to OCR2A. The interrupt period is `F_CPU/F` cycles at prescale 1, and 8 times the rounded count at prescale 8 when that fits the register. |
| Timer2.Restore | src/IRTimer.hpp:567-572 | The free-running counter is not part of the snapshot and keeps its value. |
| Timer2.DisableInterrupt | src/IRTimer.hpp:664-665 | Clears TIMSK2. The control, compare and counter registers keep their values. |
| Timer2.StoreRestoreRoundTrip | src/IRTimer.hpp:449-455 | `restoreIRTimer` after `storeIRTimer` gives back TCCR2A, TCCR2B, OCR2A, OCR2B and TIMSK2, whatever was written in between. |
| Timer2.SendSessionRestoresReceiveTimer | src/IRTimer.hpp:221-233 | Store the receive setup, reprogram for the send rate, then restore. Restoring straight onto the send setup gives back the receive setup exactly. Whatever the timer holds by the end of sending, the restore gives back the receive configuration and only the counter differs. |
| Timer2Legacy.CompareTruncated | src/IRTimer.cpp.h:156-166 | The same prescaler rule as the newer file. The prescale-8 value is truncated: `(top+1)*F <= F_CPU/8 < (top+2)*F`. |
| Timer2Legacy.CompareTruncatedAt16MHz | src/IRTimer.cpp.h:158-163 | At 16 MHz: 132 for 15 kHz, 51 rather than 52 for 38 kHz, and 209 for 76 kHz. |
| Timer2Legacy.RoundedIsTruncatedOrNext | src/IRTimer.cpp.h:162-163 | Both files pick the same prescaler. The values agree at prescale 1. At prescale 8, the rounded value is the truncated one or one more. |
| Timer2Legacy.TruncatedNeverSlowRoundedNearest | src/IRTimer.cpp.h:162-163 | At prescale 8, `(top+1)*F` is at most `F_CPU/8` for the truncated value, so the interrupt is never slower than requested. For the rounded value it is within `F/2` of `F_CPU/8`. |
| Timer2Legacy.InitLegacy | src/IRTimer.cpp.h:156-166 | The same register setup as `Timer2.Init`, using the truncated compare value. |
| Timer2Legacy.LegacySendSessionRestoresReceiveTimer | src/IRTimer.cpp.h:286-292 | Store (286-292) and restore (350-355) around the truncating send setup give back the receive setup exactly. Around any registers left by sending, they give back the receive configuration. |
| IsrTick.Tick | src/IRTimer.hpp:917-977 | The decoder runs if and only if the build is receive-only, or the timer is shared and no send is busy. The decoder and the encoder never both run in one tick. When not sending, the state is unchanged and the only call is to the decoder (none in a send-only build). When sending, the tick is the send part. |
| IsrTick.SendPart | src/IRTimer.hpp:921-961 | The first write is the carrier level. It is active exactly when the output is on and either the divider is even or no carrier is modulated, else inactive. The decoder is not called. The encoder is called if and only if the `uint8_t` divider is 1 before the decrement. Otherwise the divider wraps down by one and only the level is written. When the encoder is called, the tick is the encoder call. |
| IsrTick.EncoderCall | src/IRTimer.hpp:945-959 | The carrier write comes first, then one encoder call, and the call count goes up by one. If the encoder continues, the divider becomes 4 and the timer is untouched. If it finishes, the divider becomes 1 and the saved timer comes back. In a send-only build the interrupt is then switched off. An encoder result that leaves the output alone leaves the send state alone. |
| IsrTick.CountdownStep | src/IRTimer.hpp:945 | The `uint8_t` pre-decrement reaches 0 exactly on the last of `Countdown(d)` steps (256 when `d` is 0). Before that, each step wraps the divider down by one. |
| IsrTick.CountingDown | src/IRTimer.hpp:945 | Before the countdown runs out, `n` sending ticks only wrap the divider down by `n` and make no encoder call. |
| IsrTick.CountdownAfter | src/IRTimer.hpp:945 | If the first `n - 1` sending ticks of a countdown only wrapped the divider down, the `n`-th tick does the same and makes no encoder call. |
| IsrTick.CountdownTick | src/IRTimer.hpp:945 | A sending tick with the divider not at 1 only wraps the divider down by one and makes no encoder call. |
| IsrTick.EncoderTick | src/IRTimer.hpp:945-950 | A sending tick with the divider at 1 calls the encoder right after the carrier write, and the call count goes up by one. |
| IsrTick.CarrierTick | src/IRTimer.hpp:928-959 | One tick of steady sending keeps the cycle position and call count in step with the tick number. It writes the active level on even ticks and the inactive level on odd ticks. |
| IsrTick.CountdownToEncoderCall | src/IRTimer.hpp:945-959 | While sending, the encoder is first called after exactly `Countdown(divider)` ticks (256 when the divider is 0), and not before. |
| IsrTick.PowerUpDelay | src/IRTimer.hpp:910 | From power-up, the first 255 busy ticks make no encoder call, and the 256th does. |
| IsrTick.FrameEndRestoresReceiveTimer | src/IRTimer.hpp:948-956 | In shared mode, the tick on which the encoder reports the end of a frame puts the saved receive configuration back, and the first tick of the next frame calls the encoder. |
| IsrTick.FrameEndDisablesSendOnlyTimer | src/IRTimer.hpp:952-955 | In a send-only build the same tick also switches the timer interrupt off. |
| IsrTick.RunCarrier | src/IRTimer.hpp:928-933 | From divider 4 with the output on and the encoder continuing, after `n` ticks the divider is `4 - n%4` and the encoder has been called `n/4` times. The `j`-th tick of the run first writes the `j`-th level to the output pin, and that level is active for even `j` and inactive for odd `j`. |
| IsrTick.SendRates | src/irsndArduinoExt.h:58-67 | The send interrupt runs at twice the 38 kHz carrier. Dividing by 4 gives the 19 kHz encoder rate. |
| IsrTickLegacy.ToggleWrites | src/IRTimer.cpp.h:574-585 | The toggle writes the opposite level once while the output is on, and nothing while it is off. |
| IsrTickLegacy.LegacyEncoderCall | src/IRTimer.cpp.h:587-599 | After the toggle, the encoder is called once and the call count goes up by one. The divider goes back to 4 whatever the result. A finished frame restores the saved timer, and outside shared mode it also disables the interrupt. A continuing frame leaves the timer alone. |
| IsrTickLegacy.LegacySendPart | src/IRTimer.cpp.h:573-600 | While on, the pin toggles on every tick. While off, nothing is written unless the encoder is called. The encoder is called if and only if the divider is 1. Otherwise the divider wraps down by one and the level toggles while on. With the divider at 1, the tick is the encoder call. |
| IsrTickLegacy.LegacyTick | src/IRTimer.cpp.h:571-616 | The decoder and the encoder are never both called. While sending, the tick is the send part. In shared mode the decoder runs only when not busy. |
| IsrTickLegacy.FourTickCycle | src/IRTimer.cpp.h:573-598 | With the output steadily on, four ticks from divider 4 bring the pin level back to where it started and call the encoder exactly once. |
| IsrTickLegacy.SteadyToggleTick | src/IRTimer.cpp.h:574-598 | One tick of steady sending keeps the toggle invariant: the level is the start level flipped `i` times and the divider is `4 - i%4`. The level it writes is the start level flipped `i + 1` times. |
| IsrTickLegacy.RunToggle | src/IRTimer.cpp.h:573-600 | After `n` steady ticks the pin level is the start level if `n` is even, else flipped. The encoder has been called `n/4` times. The `j`-th tick of the run first writes the `j`-th level to the output pin. These levels alternate, starting with the opposite of the start level. |
| IsrTickLegacy.LegacyFirstCallOnFourthTick | src/IRTimer.cpp.h:562 | Starting from the initial divider 4, the first encoder call happens on the fourth busy tick. |
| PinChange.TicksFromDelta | src/irmpPinChangeInterrupt.cpp.h:53-62 | The ticks equal `(delta mod 2^30)/64`, minus 1 when that is nonzero. For `delta < 2^30` this is `delta/64`, possibly decremented. The result is below `2^24`. |
| PinChange.ShiftTicks | src/irmpPinChangeInterrupt.cpp.h:56 | Shifting the wrapped `delta << 2` right by 8 is the same as dividing `delta mod 2^30` by 64. |
| PinChange.ElapsedAcrossWrap | src/irmpPinChangeInterrupt.cpp.h:49-51 | The 32-bit difference of two `micros()` readings is the true elapsed time, even when the counter wrapped in between, as long as less than `2^32` µs passed. |
| PinChange.Accumulate | src/irmpPinChangeInterrupt.cpp.h:64-78 | With input high, only the pulse time grows by the ticks. With input low and no start bit, only the key-repetition length changes, to `min(ticks, 0xFFFF)`. With input low and a start bit, only the pause time grows. |
| PinChange.SimulateEnd | src/irmpPinChangeInterrupt.cpp.h:82-131 | The stop-bit call sees the pulse time decremented but never below 0. The frame-end call happens only for a complete frame. The Manchester ending makes three calls or none, and the first of them sees a pause time of `2*pause_1_len_max`. There are at most five extra calls (two without Manchester support), and none of them is an edge call. |
| PinChange.PciIsr | src/irmpPinChangeInterrupt.cpp.h:42-133 | Stores the new timestamp. Makes 1 to 6 decoder calls, the first on the accumulated state. Extra calls happen only for input high with no frame detected. Input low gives exactly one call, and a non-Manchester protocol at most three. On a rising input with nothing detected after the edge call, the extra calls are exactly the end-of-frame simulation: stop bit, then frame end, then Manchester. The result is the decoder's last output. |
| PinChange.WaitingFrameGetsStopBitCall | src/irmpPinChangeInterrupt.cpp.h:82-103 | On a rising edge with nothing detected, a frame of full length that waits for its stop bit gets a second decoder call right after the edge call. That call sees the pulse time decremented, but never below 0. |
| PinChange.RisingEdgeAddsElapsedTicks | src/irmpPinChangeInterrupt.cpp.h:48-66 | Across a `micros()` wrap-around, the first call on a high input sees the pulse time increased by `elapsed/64 - 1` (by 0 below 64 µs), and the pause time unchanged, for any elapsed time below `2^30` µs. |
| Dispatcher.First | examples/IRDispatcherDemo/IRCommandDispatcher.cpp.h:172-173 | Finds the first table row, in table order, whose code matches. |
| Dispatcher.EntryFor | examples/IRDispatcherDemo/IRCommandDispatcher.cpp.h:172-173 | The row used for a code is a table row carrying that code. |
| Dispatcher.Decide | examples/IRDispatcherDemo/IRCommandDispatcher.cpp.h:167-231 | The checks in order, each as an if-and-only-if. Empty gives `IR_CODE_EMPTY`. Unmapped gives `IR_CODE_NOT_FOUND` with no change. A refused repeat, or the command that is currently running, gives `FOUND_BUT_REPEAT_NOT_ACCEPTED` with no change. Past those checks, the stop request follows the entry's stop flag. A regular command under the lock gives `FOUND_BUT_RECURSIVE_LOCK` and takes the rejected slot. Otherwise the first matching entry is invoked, and the lock is taken for a regular command. |
| Dispatcher.GetIRCommand | examples/IRDispatcherDemo/IRCommandDispatcher.cpp.h:131-162 | One receive attempt consumes one input element. It is accepted if and only if data arrived and it is a repeat or carries the sketch's address. |
| Dispatcher.InvokeFollows | examples/IRDispatcherDemo/IRCommandDispatcher.cpp.h:233-246 | A call from the checks to the end of its action puts the received code next in the call log. An execute-always call only consumes input and appends calls, keeps the lock flag, and keeps the current command whenever the invariant holds. A regular call, with the lock released and the current command reset afterwards, gives the same guarantees. |
| Dispatcher.CheckAndCall | examples/IRDispatcherDemo/IRCommandDispatcher.cpp.h:167-250 | `CALLED` is returned if and only if the checks select an entry, and that code is the next one called. Every other status is exactly what the checks decide. Input is only consumed and calls are only appended. The lock flag is the same afterwards. If the invariant held before, it holds afterwards with the same current command. While a regular command runs, only execute-always commands start. |
| Dispatcher.RunAction | examples/IRDispatcherDemo/IRCommandDispatcher.cpp.h:233-245 | During an action's polls, input is only consumed and calls are only appended. The lock flag is preserved, and so is the current command whenever the invariant holds. While the lock is held, only execute-always commands are called. |
| Dispatcher.CheckInput | examples/IRDispatcherDemo/IRCommandDispatcher.cpp.h:259-273 | Returns true if and only if a received command yields `IR_CODE_NOT_FOUND` or `FOUND_BUT_RECURSIVE_LOCK`, and a true result leaves the stop request set. |
| Dispatcher.Replay | examples/IRDispatcherDemo/IRCommandDispatcher.cpp.h:111-120 | The rejected command becomes the received one, as a non-repeat, and the slot is cleared. |
| Dispatcher.Loop | examples/IRDispatcherDemo/IRCommandDispatcher.cpp.h:107-125 | `loop` only consumes input and appends calls, and the lock flag ends as it started. It keeps the invariant that the current command is `COMMAND_INVALID` when nothing runs. |
| Dispatcher.RegularCommandHoldsLock | examples/IRDispatcherDemo/IRCommandDispatcher.cpp.h:233-246 | An accepted regular command is called. Everything that starts during its action is execute-always. Afterwards the lock is released and the current command is `COMMAND_INVALID`. |
| Dispatcher.LockedOutCommandTakesSlot | examples/IRDispatcherDemo/IRCommandDispatcher.cpp.h:220-231 | A regular command under the lock is not called. It overwrites the rejected slot and gets `FOUND_BUT_RECURSIVE_LOCK`, and the stop request follows its stop flag. |
| Dispatcher.LoopReplaysRejectedFirst | examples/IRDispatcherDemo/IRCommandDispatcher.cpp.h:111-124 | `loop(true)` with a pending rejected command calls that command before anything read from new input. |
| Dispatcher.NecGetIRData | examples/IRDispatcherDemo/IRCommandDispatcher.cpp.h:70-90 | A frame is a repeat if and only if it is the NEC repeat frame or carries the last command. A repeat carries the remembered command (unless that is empty) and keeps the memory. A new command is remembered. |
| Dispatcher.NecStream | examples/IRDispatcherDemo/IRCommandDispatcher.cpp.h:70-90 | Successive `getIRData` calls map each receiver frame to exactly one dispatcher input, position by position. An empty poll stays empty, and a frame stays a frame with its address. |
| Dispatcher.HeldKeyRepeatsCommand | examples/IRDispatcherDemo/IRCommandDispatcher.cpp.h:78-82 | While a key is held, every NEC repeat frame reaches the dispatcher as the held command flagged as a repeat. It passes the address filter although it carries the repeat address. |
| Dispatcher.SecondPressIsRepeat | examples/IRDispatcherDemo/IRCommandDispatcher.cpp.h:78-86 | A second press of the same key is flagged as a repeat. |
| Dispatcher.ExamplePollLocksOut | examples/IRDispatcherDemo/IRCommandDispatcher.cpp.h:259-273 | Example: a regular command arrives during another one's poll. It is locked out, parked in the slot, and a stop is requested. |
| Dispatcher.ExampleFirstLoop | examples/IRDispatcherDemo/IRCommandDispatcher.cpp.h:107-125 | Example: the first `loop` calls command 1 only, and leaves command 2 pending and the lock released. |
| Dispatcher.NestedRegularCommandIsDeferred | examples/IRDispatcherDemo/IRCommandDispatcher.cpp.h:111-124 | Example: the next `loop(true)` calls the deferred command 2 and clears the slot. |
| AttinyTimer1.SearchPrescaler | examples/ReceiveAndSend/ATtinyUtils.cpp:73-78 | The loop ends with `1 <= prescaler <= 15` and `ocr == x >> (prescaler-1)`. Then either `ocr <= 256` or the prescaler is 15, and no smaller prescaler fits. The result agrees with the recursive reference `SearchFrom`. |
| AttinyTimer1.ShiftedIsDiv | examples/ReceiveAndSend/ATtinyUtils.cpp:75-78 | Shifting right by one `p - 1` times is division by `2^(p-1)`. |
| AttinyTimer1.SixteenBitSearchFits | examples/ReceiveAndSend/ATtinyUtils.cpp:74-78 | For a 16-bit start value the search always fits, with `ocr <= 256` and `prescaler <= 9`. |
| AttinyTimer1.SearchPeriodBrackets | examples/ReceiveAndSend/ATtinyUtils.cpp:75-80 | `ocr * 2^(p-1)` is at most the clock count and within one prescaler step of it. |
| AttinyTimer1.ToneRegs | examples/ReceiveAndSend/ATtinyUtils.cpp:80-94 | OCR1C is `ocr - 1` (8-bit wrap), and OCR1B (output B) or OCR1A (output A) is `ocr/2` (50% duty). Output B: TCCR1 holds only the prescaler and GTCCR enables PWM1B and COM1B0. Output A: TCCR1 holds PWM1A, COM1A0 and the prescaler, and GTCCR is cleared. In both cases the timer runs with exactly the prescaler found, CTC1 is clear, and both output pins of the chosen channel are set to output. The compare register of the other channel and TIMSK keep their values. |
| AttinyTimer1.PeriodicRegs | examples/ReceiveAndSend/ATtinyUtils.cpp:104-107 | The same OCR1C rule. The OCIE1A bit of TIMSK is set and no other TIMSK bit changes. In TCCR1, CTC1 is set and PWM1A and COM1A keep their values. The clock select the timer runs with is the prescaler or-ed with the clock select TCCR1 already held. The other registers keep their values. |
| AttinyTimer1.PeriodicRegsCleared | examples/ReceiveAndSend/ATtinyUtils.cpp:104-107 | Corrected writes: the clock select field is cleared first, so the timer runs with exactly the prescaler found. CTC1 is set, so the counter clears on the OCR1C match, and PWM1A and COM1A keep their values. The OCR1C and TIMSK rules are the same as in `PeriodicRegs`, and OCR1A, OCR1B and GTCCR keep their values. |
| AttinyTimer1.ToneRegsBytes | examples/ReceiveAndSend/ATtinyUtils.cpp:86-93 | The TCCR1 byte of the tone is the prescaler alone (output B), or PWM1A, COM1A0 and the prescaler or-ed together (output A). GTCCR for output B is PWM1B or-ed with COM1B0. So the field-by-field registers of the model are the bytes the source writes. |
| AttinyTimer1.PwmAWithPrescaler | examples/ReceiveAndSend/ATtinyUtils.cpp:93 | PWM1A or-ed with COM1A0 is the byte 0x50, whose low nibble is clear; or-ing a prescaler `p` into it gives `0x50 + p`, because the control bits lie above the clock select field. |
| AttinyTimer1.Or4Zero | examples/ReceiveAndSend/ATtinyUtils.cpp:106 | Or-ing a prescaler into a clear clock select field gives that prescaler. |
| AttinyTimer1.ToneWithTimer1PwmAsWritten | examples/ReceiveAndSend/ATtinyUtils.cpp:72-95 | As written: the search runs on `F_CPU/F` truncated to 16 bits. |
| AttinyTimer1.ZeroPeriodWraps | examples/ReceiveAndSend/ATtinyUtils.cpp:80 | A frequency above `F_CPU` gives `tOCR == 0`, and OCR1C wraps to 255. |
| AttinyTimer1.AsWrittenToneAt200Hz | examples/ReceiveAndSend/ATtinyUtils.cpp:74 | At 16 MHz and 200 Hz, 80000 is stored as 14464. This gives prescaler 7, OCR1C 225 and a period of 14464 clocks, about 1106 Hz. |
| AttinyTimer1.ToneWithTimer1Pwm | examples/ReceiveAndSend/ATtinyUtils.cpp:72-95 | Corrected with a 32-bit clock count: the period brackets `F_CPU/F` whenever the search fits. |
| AttinyTimer1.ToneAt200Hz | examples/ReceiveAndSend/ATtinyUtils.cpp:74 | The corrected version at 200 Hz picks prescaler 10 and OCR1C 155, a period of 79872 clocks. |
| AttinyTimer1.PeriodicInterruptWithTimer1AsWritten | examples/ReceiveAndSend/ATtinyUtils.cpp:97-108 | As written, with the same 16-bit truncation and the same search and OCR1C rule. The clock select is the prescaler or-ed with the old one. Only from a stopped timer is it the prescaler found, and then the period is `2^(p-1)` times `ocr` clocks. |
| AttinyTimer1.AsWrittenKeepsOldClockSelect | examples/ReceiveAndSend/ATtinyUtils.cpp:97-107 | A timer at clock select 8, asked for 1 kHz at 16 MHz: the search gives prescaler 7 and 250, but the timer runs at clock select 15. One interrupt every 4096000 clocks instead of 16000. |
| AttinyTimer1.PeriodicInterruptWithTimer1 | examples/ReceiveAndSend/ATtinyUtils.cpp:97-108 | Corrected with a 32-bit clock count and a cleared clock select field. The timer runs with the prescaler found, whatever TCCR1 held before. The period it runs with brackets `F_CPU/F` whenever the search fits. |

## Left out

- The decoder and encoder bodies (`irmp_ISR`, `irsnd_ISR`) and their timing tables are not part
  of this model. They are parameters: an oracle of encoder results, and a decoder step function.
- Timer APIs of other platforms are not modelled because they are foreign calls. This covers
  ESP32, ESP8266, STM32, SAMD, mbed, RP2040, Teensy and Apollo3. It includes the ESP32 re-init
  inside `restoreIRTimer`.
- Only the ATmega328 Timer2 branch (newer file) and the generic AVR Timer2 branch (older file)
  are modelled.
- Interrupt preemption and concurrency are left out. Ticks are a sequential stream.
- The TIFR2 flag reset in the timer setup is not modelled, because it writes a
  clear-on-write flag register whose value is never read back.
- Configuration headers are not modelled. Their constants appear as literals (15625, 38000,
  8 MHz) or as parameters: the dispatcher's `COMMAND_EMPTY`, `COMMAND_INVALID` and `IR_ADDRESS`,
  the build options, and `LED_BUILTIN`.
- `IR_OUTPUT_ACTIVE_LEVEL` is taken to be LOW exactly when the output is active-low, because the
  header that defines it is not part of this model.
- Serial and debug printing is left out, because it has no effect on the logic.
- `millis()`-based waiting is left out because it depends on a clock: `delayAndCheckForIRCommand`
  and the `doWait` loop in `getIRCommand`. An action is instead a number of polls.
- `irmp_get_data` and the IRLremote decoder are left out because they are external receive
  sources. The dispatcher reads a sequence of optional frames.
- `setRequestToStopReceived` is not modelled, because it only sets the flag that `Decide` and
  `CheckInput` already set.
- Pin and interrupt setup (`irmp_init`, `initPCIInterrupt`, `pinModeFast` port caching) is not
  modelled, because it is register plumbing with no logic to prove.
- The ATtiny fuse, clock and calibration helpers and `delay4CyclesInlineExact` are left out
  because they are unrelated hardware helpers.
- A frequency of 0 is excluded by `requires`, because the source divides by it, which is
  undefined in C.
- Timer2.Init: the period is stated only when `F <= F_CPU` and the compare value fits 8 bits.
  Outside that range OCR2A wraps as the source's assignment does, and no period is stated.
- PinChange.Accumulate: the decoder's accumulators are `nat`. Their width and overflow in
  `irmp.c.h` are not visible here.
- Dispatcher.NecGetIRData: `sLastIRValue` is a `uint8_t` in the source and is compared with the
  full command. The model keeps the full value, so commands above 255 are not truncated.
- IsrTick.Run: after a send-only build switches its interrupt off, further ticks are still
  stepped by the model. The hardware would stop calling the interrupt.
- AttinyTimer1.ToneWithTimer1Pwm: the corrected search can still end with `ocr > 256` at
  prescaler 15 below about 4 Hz at 16 MHz. The bracket is stated only when the search fits.

## Findings

| source | as written | input that shows it | evidently intended | confidence | as-written member | corrected member |
|---|---|---|---|---|---|---|
| examples/ReceiveAndSend/ATtinyUtils.cpp:74 | `uint16_t tOCR = F_CPU / aFrequency` truncates the clock count to 16 bits before the prescaler search | F_CPU 16 MHz and 200 Hz: 80000 becomes 14464, which gives prescaler 7 and OCR1C 225, about 1106 Hz instead of 200 Hz | a 32-bit count, which gives prescaler 10 and OCR1C 155 (about 200 Hz) | high for tones below 245 Hz at 16 MHz; not executed | AttinyTimer1.AsWrittenToneAt200Hz | AttinyTimer1.ToneWithTimer1Pwm |
| src/irsndArduinoExt.cpp.h:78 | `irsnd_init(pin)` passes the stored LED pin, although its comment says it avoids enabling feedback by passing 0 | call `irsnd_init(pin)` twice on a board with LED_BUILTIN: the second call enables the feedback LED | pass LED pin 0, so feedback stays disabled however often it is called | low (the comment may be stale); not executed | IrsndOutput.InitPinOnlyTwiceEnablesFeedback | IrsndOutput.InitPinOnlyWithoutFeedback |
| examples/ReceiveAndSend/ATtinyUtils.cpp:106 | the CTC1 bit and the prescaler are or-ed into TCCR1 without clearing the clock select bits it already holds | TCCR1 at clock select 8 (a second call, or a core that set Timer1 up), then 1 kHz at 16 MHz: clock select 8 or 7 is 15, one interrupt every 4096000 clocks (about 3.9 Hz) | clear CS13..CS10 before or-ing in the prescaler, giving one interrupt every 16000 clocks | medium (right after reset TCCR1 is 0 and the bug is silent); not executed | AttinyTimer1.AsWrittenKeepsOldClockSelect | AttinyTimer1.PeriodicInterruptWithTimer1 |

=== FILE: attiny_timer1.dfy ===
/** Timer 1 of the ATtiny85 as the ReceiveAndSend example programs it (ATtinyUtils.cpp): a
    prescaler search that picks the smallest power-of-two clock divider for which the compare
    value fits the 8-bit counter, used for a PWM tone and for a periodic interrupt. */
module AttinyTimer1 {
  import opened Bits
  import opened Gpio

  /** Largest prescaler code of TCCR1 (clock / 2^14). */
  const MaxPrescaler: nat := 15
  /** The counter counts 0 ..= OCR1C, so a compare value up to 256 periods fits. */
  const MaxPeriod: nat := 0x100

  /** TCCR1, GTCCR and TIMSK bits of the ATtiny25/45/85 (datasheet register map). */
  const CTC1: u8 := 0x80     // TCCR1: clear on compare match with OCR1C
  const PWM1A: u8 := 0x40    // TCCR1: PWM on OCR1A
  const COM1A0: u8 := 0x10   // TCCR1: OC1A and its complement as outputs
  const PWM1B: u8 := 0x40    // GTCCR: PWM on OCR1B
  const COM1B0: u8 := 0x10   // GTCCR: OC1B and its complement as outputs
  const OCIE1A: nat := 6     // TIMSK bit: compare match A interrupt

  /** Port B pins. */
  const PB0: nat := 0
  const PB1: nat := 1
  const PB3: nat := 3
  const PB4: nat := 4

  /** Prescaler code (clock / 2^(prescaler - 1)) and the compare period in prescaled clocks. */
  datatype Search = Search(prescaler: nat, ocr: nat)

  /** `x` shifted right by `p - 1`, one bit at a time: the period in clocks of prescaler `p`. */
  function Shifted(x: nat, p: nat): nat
    requires p >= 1
  {
    if p == 1 then x else Shifted(x, p - 1) / 2
  }

  /** The repeated shift is division by the prescaler's clock divider. */
  lemma {:induction false} ShiftedIsDiv(x: nat, p: nat)
    requires p >= 1
    ensures Shifted(x, p) == x / Pow2(p - 1)
  {
    if p > 1 {
      ShiftedIsDiv(x, p - 1);
      HalveShift(x, p - 2);
    }
  }

  /** What the search promises: a prescaler code in range, the period scaled by it, a period that
      fits unless the largest prescaler was reached, and no smaller prescaler that would fit. */
  predicate SearchSpec(x: nat, r: Search) {
    1 <= r.prescaler <= MaxPrescaler && r.ocr == Shifted(x, r.prescaler)
    && (r.ocr <= MaxPeriod || r.prescaler == MaxPrescaler)
    && forall q :: 1 <= q < r.prescaler ==> Shifted(x, q) > MaxPeriod
  }

  /** The search as a recursive definition: halve while too long and prescalers are left. */
  function SearchFrom(ocr: nat, p: nat): Search
    requires 1 <= p <= MaxPrescaler
    decreases MaxPrescaler - p
  {
    if ocr > MaxPeriod && p < MaxPrescaler then SearchFrom(ocr / 2, p + 1) else Search(p, ocr)
  }

  /** The search loop of `toneWithTimer1PWM` and `periodicInterruptWithTimer1` on the clock count
      `x` = F_CPU / frequency. */
  method SearchPrescaler(x: nat) returns (r: Search)
    ensures SearchSpec(x, r)
    ensures r == SearchFrom(x, 1)
  {
    var p := 1;
    var ocr := x;
    while ocr > MaxPeriod && p < MaxPrescaler
      invariant 1 <= p <= MaxPrescaler
      invariant ocr == Shifted(x, p)
      invariant forall q :: 1 <= q < p ==> Shifted(x, q) > MaxPeriod
      invariant SearchFrom(ocr, p) == SearchFrom(x, 1)
      decreases MaxPrescaler - p
    {
      p := p + 1;
      ocr := ocr / 2;
    }
    r := Search(p, ocr);
  }

  /** With a 16-bit clock count the search always ends with a fitting period and prescaler 9 at
      most (x / 2^8 is below 256). */
  lemma SixteenBitSearchFits(x: nat, r: Search)
    requires x < 0x1_0000 && SearchSpec(x, r)
    ensures r.ocr <= MaxPeriod && r.prescaler <= 9
  {
    assert Pow2(8) == 256;
    ShiftedIsDiv(x, 9);
    assert Shifted(x, 9) < MaxPeriod;
  }

  /** The period fixed by a search result brackets the clock count: it is x rounded down to a
      multiple of the prescaler. */
  lemma SearchPeriodBrackets(x: nat, r: Search)
    requires SearchSpec(x, r)
    ensures Pow2(r.prescaler - 1) * r.ocr <= x < Pow2(r.prescaler - 1) * r.ocr + Pow2(r.prescaler - 1)
  {
    ShiftedIsDiv(x, r.prescaler);
    QuotientBracket(x, Pow2(r.prescaler - 1), r.ocr);
  }

  /** 2-bit and 4-bit fields of a register. */
  type Crumb = x: int | 0 <= x < 4
  type Nibble = x: int | 0 <= x < 16

  /** TCCR1 field by field: CTC1 (bit 7), PWM1A (bit 6), COM1A1..COM1A0 (bits 5..4) and the clock
      select CS13..CS10 (bits 3..0). */
  datatype Tccr1 = Tccr1(ctc1: bool, pwm1a: bool, com1a: Crumb, cs: Nibble)

  /** The byte TCCR1 holds. */
  function Tccr1Value(t: Tccr1): u8 {
    (if t.ctc1 then 0x80 else 0) + (if t.pwm1a then 0x40 else 0) + 16 * t.com1a + t.cs
  }

  /** Timer 1 registers written here; TIMSK, shared with timer 0, as the set of its bits that are set. */
  datatype Timer1 = Timer1(tccr1: Tccr1, gtccr: u8, ocr1a: u8, ocr1b: u8, ocr1c: u8, timsk: set<nat>)

  /** Bitwise or of two values below `2^(k+1)`, bit `k` first: bit `k` of the result is set when
      it is set in either operand, and the bits below are the or of what remains. */
  function OrFrom(a: nat, b: nat, k: nat): (r: nat)
    requires a < 2 * Pow2(k) && b < 2 * Pow2(k)
    ensures r < 2 * Pow2(k)
    decreases k
  {
    var w := Pow2(k);
    var bit := if a >= w || b >= w then w else 0;
    if k == 0 then bit
    else bit + OrFrom(if a >= w then a - w else a, if b >= w then b - w else b, k - 1)
  }

  /** Bitwise or of two nibbles. */
  function Or4(a: Nibble, b: Nibble): (r: Nibble) {
    OrFrom(a, b, 3)
  }

  /** Bitwise or of two register values. */
  function Or8(a: u8, b: u8): (r: u8) {
    OrFrom(a, b, 7)
  }

  /** The clock select the timer runs with. */
  function ClockSelect(t: Timer1): Nibble {
    t.tccr1.cs
  }

  /** Or-ing into a clear field gives the other operand. */
  lemma {:induction false} OrFromZero(b: nat, k: nat)
    requires b < 2 * Pow2(k)
    ensures OrFrom(0, b, k) == b
    decreases k
  {
    if k > 0 {
      OrFromZero(if b >= Pow2(k) then b - Pow2(k) else b, k - 1);
    }
  }

  /** Or-ing a prescaler into a clear clock select field gives the prescaler. */
  lemma Or4Zero(b: Nibble)
    ensures Or4(0, b) == b
  {
    OrFromZero(b, 3);
  }

  /** PWM period in CPU clocks of a timer programmed with prescaler code `p` (when 1..15). */
  function PeriodClocks(t: Timer1, p: nat): nat
    requires p >= 1
  {
    Pow2(p - 1) * (t.ocr1c + 1)
  }

  /** The register writes of `toneWithTimer1PWM` for a search result: OCR1C = period - 1 (8-bit),
      a 50% duty compare value, and output B (PB4/PB3) or output A (PB1/PB0) in PWM mode. */
  function ToneRegs(s: Search, useB: bool, prior: Timer1): (r: Out<Timer1>)
    requires s.prescaler <= MaxPrescaler
    ensures r.state.ocr1c == ToU8(s.ocr - 1)
    // output B: TCCR1 holds only the prescaler, GTCCR = PWM1B | COM1B0
    ensures useB ==> r.state.ocr1b == ToU8(s.ocr / 2) && r.state.tccr1 == Tccr1(false, false, 0, s.prescaler)
                     && r.state.gtccr == 0x50 && r.ops == [Mode(PB3, true), Mode(PB4, true)]
    // output A: TCCR1 = PWM1A | COM1A0 | prescaler, GTCCR cleared
    ensures !useB ==> r.state.ocr1a == ToU8(s.ocr / 2) && r.state.gtccr == 0
                      && r.state.tccr1 == Tccr1(false, true, 1, s.prescaler)
                      && r.ops == [Mode(PB1, true), Mode(PB0, true)]
    // the clock runs with exactly the prescaler found, and without CTC1 the counter also wraps at OCR1C
    ensures ClockSelect(r.state) == s.prescaler && !r.state.tccr1.ctc1
    // the registers the chosen channel does not use keep their values
    ensures r.state.timsk == prior.timsk
    ensures useB ==> r.state.ocr1a == prior.ocr1a
    ensures !useB ==> r.state.ocr1b == prior.ocr1b
  {
    var t := prior.(ocr1c := ToU8(s.ocr - 1));
    if useB then
      Out(t.(ocr1b := ToU8(s.ocr / 2), gtccr := 0x50, tccr1 := Tccr1(false, false, 0, s.prescaler)),
          [Mode(PB3, true), Mode(PB4, true)])
    else
      Out(t.(ocr1a := ToU8(s.ocr / 2), gtccr := 0, tccr1 := Tccr1(false, true, 1, s.prescaler)),
          [Mode(PB1, true), Mode(PB0, true)])
  }

  /** The bytes the tone writes are the source's or-ed bit masks: `tPrescaler` alone or
      `_BV(PWM1A) | _BV(COM1A0) | tPrescaler` in TCCR1, and `_BV(PWM1B) | _BV(COM1B0)` in GTCCR. */
  lemma ToneRegsBytes(s: Search, useB: bool, prior: Timer1)
    requires s.prescaler <= MaxPrescaler
    ensures useB ==> Tccr1Value(ToneRegs(s, useB, prior).state.tccr1) == s.prescaler
                     && ToneRegs(s, useB, prior).state.gtccr == Or8(PWM1B, COM1B0)
    ensures !useB ==> Tccr1Value(ToneRegs(s, useB, prior).state.tccr1) == Or8(Or8(PWM1A, COM1A0), s.prescaler)
  {
    PwmOutputBits();
    PwmAWithPrescaler(s.prescaler);
  }

  /** PWM1A | COM1A0 lies above the clock select field, so or-ing in `p` puts `p` there. */
  lemma PwmAWithPrescaler(p: Nibble)
    ensures Or8(Or8(PWM1A, COM1A0), p) == 0x50 + p
  {
    PwmOutputBits();
    OrBelowPwmBits(p);
  }

  /** The weights of bits 3 to 7. */
  lemma BitWeights()
    ensures Pow2(3) == 8 && Pow2(4) == 16 && Pow2(5) == 32 && Pow2(6) == 64 && Pow2(7) == 128
  {
  }

  /** Both PWM modes with their outputs enabled are the byte 0x50. */
  lemma PwmOutputBits()
    ensures Or8(PWM1A, COM1A0) == 0x50 && Or8(PWM1B, COM1B0) == 0x50
  {
    BitWeights();
  }

  /** The low nibble of 0x50 is clear, so a nibble or-ed into it is added. */
  lemma OrBelowPwmBits(p: Nibble)
    ensures Or8(0x50, p) == 0x50 + p
  {
    BitWeights();
    assert OrFrom(0x50, p, 7) == OrFrom(0x50, p, 6);
    assert OrFrom(0x50, p, 6) == 0x40 + OrFrom(0x10, p, 5);
    assert OrFrom(0x10, p, 5) == OrFrom(0x10, p, 4);
    assert OrFrom(0x10, p, 4) == 0x10 + OrFrom(0, p, 3);
    OrFromZero(p, 3);
  }

  /** The register writes of `periodicInterruptWithTimer1`: OCR1C as for the tone, CTC1 and the
      prescaler or-ed into TCCR1, and the compare-A interrupt or-ed into TIMSK. The clock select
      bits TCCR1 already had are never cleared, so the timer runs with their union. */
  function PeriodicRegs(s: Search, prior: Timer1): (r: Timer1)
    requires s.prescaler <= MaxPrescaler
    ensures r.ocr1c == ToU8(s.ocr - 1)
    // the compare-A interrupt is enabled and no other TIMSK bit changes
    ensures OCIE1A in r.timsk && r.timsk - {OCIE1A} == prior.timsk - {OCIE1A}
    // CTC1 is set, the other control bits of TCCR1 are kept, the clock selects are or-ed
    ensures r.tccr1.ctc1 && r.tccr1.pwm1a == prior.tccr1.pwm1a && r.tccr1.com1a == prior.tccr1.com1a
    ensures ClockSelect(r) == Or4(ClockSelect(prior), s.prescaler)
    ensures r.ocr1a == prior.ocr1a && r.ocr1b == prior.ocr1b && r.gtccr == prior.gtccr
  {
    prior.(ocr1c := ToU8(s.ocr - 1), tccr1 := prior.tccr1.(ctc1 := true, cs := Or4(prior.tccr1.cs, s.prescaler)),
           timsk := prior.timsk + {OCIE1A})
  }

  /** The writes of `periodicInterruptWithTimer1` with the clock select field cleared before the
      prescaler is or-ed in: the timer runs with exactly the prescaler found, whatever TCCR1 held. */
  function PeriodicRegsCleared(s: Search, prior: Timer1): (r: Timer1)
    requires s.prescaler <= MaxPrescaler
    ensures r.ocr1c == ToU8(s.ocr - 1)
    // the compare-A interrupt is enabled and no other TIMSK bit changes
    ensures OCIE1A in r.timsk && r.timsk - {OCIE1A} == prior.timsk - {OCIE1A}
    ensures ClockSelect(r) == s.prescaler
    // CTC1 is set: the counter clears on the OCR1C match, so OCR1C fixes the period
    ensures r.tccr1.ctc1 && r.tccr1.pwm1a == prior.tccr1.pwm1a && r.tccr1.com1a == prior.tccr1.com1a
    ensures r.ocr1a == prior.ocr1a && r.ocr1b == prior.ocr1b && r.gtccr == prior.gtccr
  {
    Or4Zero(s.prescaler);
    prior.(ocr1c := ToU8(s.ocr - 1), tccr1 := prior.tccr1.(ctc1 := true, cs := Or4(0, s.prescaler)),
           timsk := prior.timsk + {OCIE1A})
  }

  /** `uint16_t tOCR = F_CPU / aFrequency`: the clock count as the source computes it. */
  function ClocksAsWritten(fcpu: nat, freq: u16): u16
    requires freq > 0
  {
    ToU16(fcpu / freq)
  }

  /** `toneWithTimer1PWM` as written, with the clock count truncated to 16 bits. */
  method ToneWithTimer1PwmAsWritten(fcpu: nat, freq: u16, useB: bool, prior: Timer1) returns (r: Out<Timer1>, s: Search)
    requires freq > 0
    ensures s.prescaler <= 9 && s.ocr <= MaxPeriod && SearchSpec(ClocksAsWritten(fcpu, freq), s)
    ensures r == ToneRegs(s, useB, prior)
    ensures 0 < s.ocr ==> PeriodClocks(r.state, s.prescaler) == Pow2(s.prescaler - 1) * s.ocr
  {
    s := SearchPrescaler(ClocksAsWritten(fcpu, freq));
    SixteenBitSearchFits(ClocksAsWritten(fcpu, freq), s);
    r := ToneRegs(s, useB, prior);
  }

  /** A frequency above the CPU clock gives a zero period, and OCR1C = 0 - 1 wraps to 255. */
  lemma ZeroPeriodWraps(fcpu: nat, freq: u16)
    requires 0 < freq && fcpu < freq
    ensures SearchFrom(ClocksAsWritten(fcpu, freq), 1) == Search(1, 0)
    ensures ToU8(SearchFrom(ClocksAsWritten(fcpu, freq), 1).ocr - 1) == 255
  {
    DivUnique(fcpu, freq, 0, fcpu);
  }

  /** The truncation at work: at 16 MHz a 200 Hz tone needs 80000 clocks, which the 16-bit
      variable turns into 14464; the timer is programmed for about 1106 Hz. */
  lemma AsWrittenToneAt200Hz(useB: bool, prior: Timer1)
    ensures 16_000_000 / 200 == 80_000 && ClocksAsWritten(16_000_000, 200) == 14_464
    ensures SearchFrom(ClocksAsWritten(16_000_000, 200), 1) == Search(7, 226)
    ensures PeriodClocks(ToneRegs(Search(7, 226), useB, prior).state, 7) == 14_464
  {
    assert Pow2(6) == 64;
  }

  /** `toneWithTimer1PWM` with the clock count kept in 32 bits: the programmed period is the
      requested clock count rounded down to a multiple of the prescaler. */
  method ToneWithTimer1Pwm(fcpu: nat, freq: u16, useB: bool, prior: Timer1) returns (r: Out<Timer1>, s: Search)
    requires freq > 0
    ensures SearchSpec(fcpu / freq, s)
    ensures r == ToneRegs(s, useB, prior)
    ensures 0 < s.ocr <= MaxPeriod ==>
      PeriodClocks(r.state, s.prescaler) <= fcpu / freq < PeriodClocks(r.state, s.prescaler) + Pow2(s.prescaler - 1)
  {
    s := SearchPrescaler(fcpu / freq);
    SearchPeriodBrackets(fcpu / freq, s);
    r := ToneRegs(s, useB, prior);
    assert 0 < s.ocr <= MaxPeriod ==> r.state.ocr1c + 1 == s.ocr;
  }

  /** With 32 bits the 200 Hz tone at 16 MHz gets prescaler 10 (clock / 512) and 156 periods:
      79872 clocks, 200.3 Hz. */
  lemma ToneAt200Hz(useB: bool, prior: Timer1)
    ensures SearchFrom(16_000_000 / 200, 1) == Search(10, 156)
    ensures PeriodClocks(ToneRegs(Search(10, 156), useB, prior).state, 10) == 79_872
  {
    DividerValues();
  }

  /** `periodicInterruptWithTimer1` as written: 16-bit clock count, and the prescaler or-ed into
      whatever clock select TCCR1 held. Only from a stopped timer is the period the one found. */
  method PeriodicInterruptWithTimer1AsWritten(fcpu: nat, freq: u16, prior: Timer1) returns (r: Timer1, s: Search)
    requires freq > 0
    ensures s.prescaler <= 9 && s.ocr <= MaxPeriod && SearchSpec(ClocksAsWritten(fcpu, freq), s)
    ensures r == PeriodicRegs(s, prior)
    ensures ClockSelect(r) == Or4(ClockSelect(prior), s.prescaler)
    ensures ClockSelect(prior) == 0 && 0 < s.ocr ==>
      ClockSelect(r) == s.prescaler && PeriodClocks(r, ClockSelect(r)) == Pow2(s.prescaler - 1) * s.ocr
  {
    s := SearchPrescaler(ClocksAsWritten(fcpu, freq));
    SixteenBitSearchFits(ClocksAsWritten(fcpu, freq), s);
    r := PeriodicRegs(s, prior);
    Or4Zero(s.prescaler);
    assert 0 < s.ocr ==> r.ocr1c + 1 == s.ocr;
  }

  /** A timer left at clock select 8 (clock / 128) and asked for 1 kHz at 16 MHz: the search finds
      prescaler 7 and 250 periods (16000 clocks), but the or-ed clock select is 15 (clock / 16384)
      and the interrupt comes every 4096000 clocks, about 3.9 Hz. */
  lemma AsWrittenKeepsOldClockSelect(prior: Timer1)
    requires ClockSelect(prior) == 8
    ensures ClocksAsWritten(16_000_000, 1000) == 16_000
    ensures SearchFrom(ClocksAsWritten(16_000_000, 1000), 1) == Search(7, 250)
    ensures ClockSelect(PeriodicRegs(Search(7, 250), prior)) == 15
    ensures PeriodClocks(PeriodicRegs(Search(7, 250), prior), 15) == 4_096_000
    ensures PeriodClocks(PeriodicRegsCleared(Search(7, 250), prior), 7) == 16_000
  {
    SearchAt1kHz();
    OldClockSelectPeriods(Search(7, 250), prior);
  }

  /** The clock dividers of the prescaler codes used in the worked examples. */
  lemma DividerValues()
    ensures Pow2(6) == 64 && Pow2(9) == 512 && Pow2(14) == 16384
  {
    assert Pow2(2) == 4;
    assert Pow2(4) == 16;
    assert Pow2(6) == 64;
    assert Pow2(8) == 256;
    assert Pow2(9) == 512;
    assert Pow2(10) == 1024;
    assert Pow2(12) == 4096;
  }

  /** The registers both versions write for prescaler 7 and 250 periods over clock select 8. */
  lemma OldClockSelectPeriods(s: Search, prior: Timer1)
    requires s.prescaler == 7 && s.ocr == 250 && ClockSelect(prior) == 8
    ensures ClockSelect(PeriodicRegs(s, prior)) == 15
    ensures PeriodClocks(PeriodicRegs(s, prior), 15) == 4_096_000
    ensures PeriodClocks(PeriodicRegsCleared(s, prior), 7) == 16_000
  {
    OrSevenIntoEight(s, prior);
    CompareAt250(s, prior);
    PeriodsAt250(PeriodicRegs(s, prior));
    PeriodsAt250(PeriodicRegsCleared(s, prior));
  }

  lemma OrSevenIntoEight(s: Search, prior: Timer1)
    requires s.prescaler == 7 && ClockSelect(prior) == 8
    ensures ClockSelect(PeriodicRegs(s, prior)) == 15
  {
    EightOrSeven();
  }

  lemma CompareAt250(s: Search, prior: Timer1)
    requires s.prescaler <= MaxPrescaler && s.ocr == 250
    ensures PeriodicRegs(s, prior).ocr1c == 249 && PeriodicRegsCleared(s, prior).ocr1c == 249
  {
  }

  /** 250 periods at clock / 16384 and at clock / 64. */
  lemma PeriodsAt250(t: Timer1)
    requires t.ocr1c == 249
    ensures PeriodClocks(t, 15) == 4_096_000 && PeriodClocks(t, 7) == 16_000
  {
    DividerValues();
  }

  /** At 16 MHz and 1 kHz the search runs on 16000 clocks and ends at prescaler 7 with 250. */
  lemma SearchAt1kHz()
    ensures ClocksAsWritten(16_000_000, 1000) == 16_000
    ensures SearchFrom(16_000, 1) == Search(7, 250)
  {
  }

  /** Clock select 8 or-ed with prescaler 7. */
  lemma EightOrSeven()
    ensures Or4(8, 7) == 15
  {
  }

  /** `periodicInterruptWithTimer1` corrected twice: the clock count kept in 32 bits and the clock
      select field cleared before the prescaler is set. The interrupt period, read off the
      registers as the timer runs them, brackets `F_CPU / F` whatever TCCR1 held before. */
  method PeriodicInterruptWithTimer1(fcpu: nat, freq: u16, prior: Timer1) returns (r: Timer1, s: Search)
    requires freq > 0
    ensures SearchSpec(fcpu / freq, s)
    ensures r == PeriodicRegsCleared(s, prior)
    ensures ClockSelect(r) == s.prescaler
    ensures 0 < s.ocr <= MaxPeriod ==>
      PeriodClocks(r, ClockSelect(r)) <= fcpu / freq < PeriodClocks(r, ClockSelect(r)) + Pow2(ClockSelect(r) - 1)
  {
    s := SearchPrescaler(fcpu / freq);
    SearchPeriodBrackets(fcpu / freq, s);
    r := PeriodicRegsCleared(s, prior);
    assert 0 < s.ocr <= MaxPeriod ==> r.ocr1c + 1 == s.ocr;
  }
}

=== FILE: bits.dfy ===
/** Fixed-width unsigned integers of the AVR/C world, modelled on unbounded
    integers with explicit wrap-around where the source relies on it. */
module Bits {

  type u8 = x: int | 0 <= x < 0x100
  type u16 = x: int | 0 <= x < 0x1_0000
  type u32 = x: int | 0 <= x < 0x1_0000_0000

  /** Conversion of any C integer to `uint8_t` (modulo 2^8). */
  function ToU8(x: int): (r: u8)
    ensures 0 <= x < 0x100 ==> r == x
    ensures (r - x) % 0x100 == 0
  {
    x % 0x100
  }

  /** Conversion of any C integer to `uint16_t` (modulo 2^16). */
  function ToU16(x: int): (r: u16)
    ensures 0 <= x < 0x1_0000 ==> r == x
    ensures (r - x) % 0x1_0000 == 0
  {
    x % 0x1_0000
  }

  /** Conversion of any C integer to `uint32_t` (modulo 2^32). */
  function ToU32(x: int): (r: u32)
    ensures 0 <= x < 0x1_0000_0000 ==> r == x
    ensures (r - x) % 0x1_0000_0000 == 0
  {
    x % 0x1_0000_0000
  }

  function Pow2(n: nat): (r: nat)
    ensures r >= 1
  {
    if n == 0 then 1 else 2 * Pow2(n - 1)
  }

  lemma {:induction false} Pow2Monotonic(m: nat, n: nat)
    requires m <= n
    ensures Pow2(m) <= Pow2(n)
  {
    if m < n {
      Pow2Monotonic(m, n - 1);
    }
  }

  /** Shifting right twice by one bit is shifting by the sum. */
  lemma HalveShift(x: nat, n: nat)
    ensures x / Pow2(n) / 2 == x / Pow2(n + 1)
  {
    var p := Pow2(n);
    assert Pow2(n + 1) == 2 * p;
    var q, r := x / p, x % p;
    DivMod(x, p);
    var q2, r2 := q / 2, q % 2;
    var low := if r2 == 0 then r else p + r;
    Regroup(q2, r2, p);
    assert x == q2 * (2 * p) + low;
    DivUnique(x, 2 * p, q2, low);
  }

  lemma DivMod(x: int, d: int)
    requires d > 0
    ensures x == (x / d) * d + x % d && 0 <= x % d < d
  {
  }

  /** Splitting a quotient by 2: (2*a + b)*p regrouped, for a bit b. */
  lemma Regroup(a: int, b: int, p: int)
    requires b == 0 || b == 1
    ensures (2 * a + b) * p == a * (2 * p) + (if b == 0 then 0 else p)
  {
  }

  /** The quotient is the unique q with q*d <= x < (q+1)*d. */
  lemma DivUnique(x: int, d: int, q: int, r: int)
    requires d > 0
    requires x == q * d + r && 0 <= r < d
    ensures x / d == q && x % d == r
  {
    var q0 := x / d;
    var r0 := x % d;
    assert x == q0 * d + r0 && 0 <= r0 < d;
    assert (q - q0) * d == r0 - r by {
      assert q * d - q0 * d == (q - q0) * d;
    }
    if q > q0 {
      MulAtLeast(q - q0, d);
    } else if q < q0 {
      MulAtLeast(q0 - q, d);
    }
  }

  lemma MulAtLeast(k: int, d: int)
    requires k >= 1 && d > 0
    ensures k * d >= d
  {
    assert k * d == (k - 1) * d + d;
  }

  /** The quotient brackets the dividend: q*d <= x < (q+1)*d. */
  lemma DivBracket(x: int, d: int)
    requires d > 0
    ensures (x / d) * d <= x < (x / d + 1) * d
  {
    assert x == (x / d) * d + x % d;
  }

  /** The bracket with the divisor in front, as period formulas write it. */
  lemma QuotientBracket(x: int, d: int, q: int)
    requires d > 0 && q == x / d
    ensures d * q <= x < d * q + d
  {
    DivMod(x, d);
    assert d * q == q * d;
  }

  lemma MulMono(a: int, b: int, c: int)
    requires a <= b && c >= 0
    ensures a * c <= b * c
  {
    assert b * c - a * c == (b - a) * c;
  }
}

=== FILE: dispatcher.dfy ===
/** The IR command dispatcher of the IRDispatcherDemo example: received IR codes are looked up in
    a mapping table and the mapped command is called, with a lock that keeps a second regular
    command from starting while one is running, a one-slot memory for a command rejected by that
    lock, and a stop request that long-running commands poll for.

    A command's action is modelled by what it does with the dispatcher: it polls for new input
    (`checkIRInputForAlwaysExecutableCommand`) up to a fixed number of times and returns early
    when a poll reports a stop. The received IR frames are an input stream, one element consumed
    per `getIRData` call; `None` is a poll with nothing received. */
module Dispatcher {

  datatype Option<T> = None | Some(value: T)

  /** `IRReceivedData`: the frame as the receiver delivered it. */
  datatype IRData = IRData(address: nat, command: nat, isRepeat: bool)

  /** `IR_COMMAND_FLAG_REPEATABLE`, `IR_COMMAND_FLAG_IS_STOP_COMMAND`, `IR_COMMAND_FLAG_EXECUTE_ALWAYS`. */
  datatype Flags = Flags(repeatable: bool, isStop: bool, executeAlways: bool)

  /** A row of `IRMapping`: IR code, flags, and the action's number of input polls. */
  datatype Entry = Entry(code: nat, flags: Flags, polls: nat)

  /** `COMMAND_EMPTY`, `COMMAND_INVALID` and `IR_ADDRESS` from the demo's header. */
  datatype Consts = Consts(empty: nat, invalid: nat, irAddress: nat)

  /** The return codes of `checkAndCallCommand`. */
  datatype Status = IrCodeEmpty | IrCodeNotFound | FoundButRepeatNotAccepted | FoundButRecursiveLock | Called

  /** The dispatcher's fields, the pending input and the log of commands called so far. */
  datatype Dispatcher = Dispatcher(
    justCalledRegular: bool,   // justCalledRegularIRCommand
    executing: bool,           // executingRegularCommand
    current: nat,              // currentRegularCommandCalled
    rejected: nat,             // rejectedRegularCommand
    stopRequested: bool,       // requestToStopReceived
    received: IRData,          // IRReceivedData
    input: seq<Option<IRData>>,
    called: seq<nat>)

  function Initial(c: Consts, input: seq<Option<IRData>>): Dispatcher {
    Dispatcher(false, false, c.invalid, c.invalid, false, IRData(0, c.empty, false), input, [])
  }

  /** Between calls the current command is `COMMAND_INVALID` whenever no regular command runs. */
  predicate Inv(c: Consts, s: Dispatcher) {
    !s.executing ==> s.current == c.invalid
  }

  predicate Mapped(table: seq<Entry>, code: nat) {
    exists i :: 0 <= i < |table| && table[i].code == code
  }

  /** Index of the first table row for `code`. */
  function First(table: seq<Entry>, code: nat): (i: nat)
    requires Mapped(table, code)
    ensures i < |table| && table[i].code == code
    ensures forall j :: 0 <= j < i ==> table[j].code != code
  {
    if table[0].code == code then 0 else 1 + First(table[1..], code)
  }

  /** The table row that handles `code`: the first one, in table order. */
  function EntryFor(table: seq<Entry>, code: nat): (e: Entry)
    requires Mapped(table, code)
    ensures e in table && e.code == code
  {
    table[First(table, code)]
  }

  predicate ExecuteAlways(table: seq<Entry>, code: nat) {
    Mapped(table, code) && EntryFor(table, code).flags.executeAlways
  }

  predicate Suffix<T(==)>(b: seq<T>, a: seq<T>) {
    |b| <= |a| && a[|a| - |b|..] == b
  }

  predicate Prefix<T(==)>(a: seq<T>, b: seq<T>) {
    |a| <= |b| && b[..|a|] == a
  }

  /** The outcome of the checks of `checkAndCallCommand` before any action runs: either a final
      status, or the table row to call and the flags set just before calling it. */
  datatype Decision = Done(status: Status, state: Dispatcher) | Invoke(entry: Entry, state: Dispatcher)

  /** The checks, in the source's order: empty code, table lookup, repeat, recursion, stop flag,
      lock. */
  function Decide(c: Consts, table: seq<Entry>, s: Dispatcher): (r: Decision)
    ensures r.state.input == s.input && r.state.called == s.called
    ensures var cmd := s.received.command;
      && (cmd == c.empty <==> r == Done(IrCodeEmpty, s))
      && (cmd != c.empty && !Mapped(table, cmd) <==> r == Done(IrCodeNotFound, s))
      && (r.Done? && r.status == FoundButRepeatNotAccepted <==>
            cmd != c.empty && Mapped(table, cmd)
            && ((s.received.isRepeat && !EntryFor(table, cmd).flags.repeatable) || s.current == cmd))
      && (r.Done? && r.status == FoundButRepeatNotAccepted ==> r.state == s)
    // past the two checks the stop request follows the entry's stop flag, even when locked out
    ensures var cmd := s.received.command;
      (r.Done? && r.status == FoundButRecursiveLock) || r.Invoke? ==>
        cmd != c.empty && Mapped(table, cmd)
        && !(s.received.isRepeat && !EntryFor(table, cmd).flags.repeatable) && s.current != cmd
        && r.state.stopRequested == EntryFor(table, cmd).flags.isStop
    ensures var cmd := s.received.command;
      r.Done? && r.status == FoundButRecursiveLock ==>
        s.executing && !EntryFor(table, cmd).flags.executeAlways
        && r.state == s.(stopRequested := r.state.stopRequested, rejected := cmd)
    ensures r.Done? ==> r.status != Called
    ensures var cmd := s.received.command;
      r.Invoke? ==>
        r.entry == EntryFor(table, cmd)
        && (s.executing ==> r.entry.flags.executeAlways)
        && (r.entry.flags.executeAlways ==> r.state == s.(stopRequested := r.state.stopRequested))
        && (!r.entry.flags.executeAlways ==>
              r.state == s.(stopRequested := r.state.stopRequested, justCalledRegular := true, executing := true, current := cmd))
  {
    var cmd := s.received.command;
    if cmd == c.empty then Done(IrCodeEmpty, s)
    else if !Mapped(table, cmd) then Done(IrCodeNotFound, s)
    else
      var e := EntryFor(table, cmd);
      if s.received.isRepeat && !e.flags.repeatable then Done(FoundButRepeatNotAccepted, s)
      else if s.current == cmd then Done(FoundButRepeatNotAccepted, s)
      else
        var s1 := s.(stopRequested := e.flags.isStop);
        if e.flags.executeAlways then Invoke(e, s1)
        else if s1.executing then Done(FoundButRecursiveLock, s1.(rejected := cmd))
        else Invoke(e, s1.(justCalledRegular := true, executing := true, current := cmd))
  }

  /** `getIRCommand(false)`: one `getIRData` call; accepted when it is a repeat or carries the
      demo's address. */
  function GetIRCommand(c: Consts, s: Dispatcher): (r: (bool, Dispatcher))
    ensures r.0 <==> |s.input| > 0 && s.input[0].Some?
                     && (s.input[0].value.isRepeat || s.input[0].value.address == c.irAddress)
    ensures |s.input| > 0 ==> r.1.input == s.input[1..]
    ensures |s.input| > 0 && s.input[0].Some? ==> r.1 == s.(received := s.input[0].value, input := s.input[1..])
    ensures (|s.input| == 0 || s.input[0].None?) ==> r.1 == s.(input := if |s.input| == 0 then [] else s.input[1..])
  {
    if |s.input| == 0 then (false, s)
    else match s.input[0]
      case None => (false, s.(input := s.input[1..]))
      case Some(d) => (d.isRepeat || d.address == c.irAddress, s.(received := d, input := s.input[1..]))
  }

  /** What any stretch of dispatching does to the state: input is only consumed, calls are only
      appended, the lock flag ends as it started, the current command is kept whenever `Inv`
      holds, and while a regular command runs only execute-always commands are called. */
  predicate Follows(c: Consts, table: seq<Entry>, a: Dispatcher, b: Dispatcher) {
    && Suffix(b.input, a.input) && Prefix(a.called, b.called)
    && b.executing == a.executing
    && (Inv(c, a) ==> Inv(c, b) && b.current == a.current)
    && (a.executing ==> forall i :: |a.called| <= i < |b.called| ==> ExecuteAlways(table, b.called[i]))
  }

  lemma FollowsRefl(c: Consts, table: seq<Entry>, a: Dispatcher, b: Dispatcher)
    requires b.input == a.input && b.called == a.called && b.executing == a.executing && b.current == a.current
    ensures Follows(c, table, a, b)
  {
    assert a.input[|a.input| - |b.input|..] == b.input;
    assert b.called[..|a.called|] == a.called;
  }

  lemma {:induction false} FollowsTrans(c: Consts, table: seq<Entry>, a: Dispatcher, b: Dispatcher, d: Dispatcher)
    requires Follows(c, table, a, b) && Follows(c, table, b, d)
    ensures Follows(c, table, a, d)
  {
    var (x, y, z) := (a.input, b.input, d.input);
    assert x[|x| - |z|..] == x[|x| - |y|..][|y| - |z|..];
    assert d.called[..|a.called|] == d.called[..|b.called|][..|a.called|];
    if a.executing {
      forall i | |a.called| <= i < |d.called|
        ensures ExecuteAlways(table, d.called[i])
      {
        if i < |b.called| {
          assert d.called[i] == d.called[..|b.called|][i];
        }
      }
    }
  }

  /** The checks end without a call: only flags and the slot change. */
  lemma DoneFollows(c: Consts, table: seq<Entry>, s: Dispatcher)
    requires Decide(c, table, s).Done?
    ensures Follows(c, table, s, Decide(c, table, s).state)
  {
    var d := Decide(c, table, s);
    FollowsRefl(c, table, s, d.state);
  }

  /** A call, from the checks through the end of the action. An execute-always command leaves
      the lock as it was; a regular one takes the lock (only possible when it was free) and
      releases it afterwards. */
  lemma InvokeFollows(c: Consts, table: seq<Entry>, s: Dispatcher, after: Dispatcher)
    requires Decide(c, table, s).Invoke?
    requires var d := Decide(c, table, s); Follows(c, table, d.state.(called := d.state.called + [d.entry.code]), after)
    ensures var d := Decide(c, table, s);
      && |after.called| > |s.called| && after.called[|s.called|] == s.received.command
      && (d.entry.flags.executeAlways ==> Follows(c, table, s, after))
      && (!d.entry.flags.executeAlways ==> Follows(c, table, s, after.(executing := false, current := c.invalid)))
  {
    var d := Decide(c, table, s);
    var s2 := d.state.(called := d.state.called + [d.entry.code]);
    assert s2.input == s.input;
    assert after.called[|s.called|] == after.called[..|s2.called|][|s.called|];
    var r := if d.entry.flags.executeAlways then after else after.(executing := false, current := c.invalid);
    assert Suffix(r.input, s.input);
    assert r.called[..|s.called|] == after.called[..|s2.called|][..|s.called|];
    if s.executing {
      assert d.entry.flags.executeAlways;
      forall i | |s.called| <= i < |r.called|
        ensures ExecuteAlways(table, r.called[i])
      {
        if i == |s.called| {
          assert r.called[i] == s.received.command == d.entry.code;
        }
      }
    }
  }

  /** `checkAndCallCommand`. The log `called` records each command whose action starts. */
  function CheckAndCall(c: Consts, table: seq<Entry>, s: Dispatcher): (r: (Status, Dispatcher))
    ensures Follows(c, table, s, r.1)
    ensures r.0 != Called ==> Decide(c, table, s) == Done(r.0, r.1)
    ensures r.0 == Called <==> Decide(c, table, s).Invoke?
    ensures r.0 == Called ==> |r.1.called| > |s.called| && r.1.called[|s.called|] == s.received.command
    decreases |s.input|, 2, 0
  {
    match Decide(c, table, s)
    case Done(status, s1) => DoneFollows(c, table, s); (status, s1)
    case Invoke(e, s1) =>
      var after := RunAction(c, table, s1.(called := s1.called + [e.code]), e.polls);
      InvokeFollows(c, table, s, after);
      if e.flags.executeAlways then (Called, after)
      else (Called, after.(executing := false, current := c.invalid))
  }

  /** A command's action: up to `polls` calls of `checkIRInputForAlwaysExecutableCommand`,
      returning as soon as one reports a stop. */
  function RunAction(c: Consts, table: seq<Entry>, s: Dispatcher, polls: nat): (r: Dispatcher)
    ensures Follows(c, table, s, r)
    decreases |s.input|, 1, polls
  {
    if polls == 0 then FollowsRefl(c, table, s, s); s
    else
      var (stop, s1) := CheckInput(c, table, s);
      if stop then s1
      else
        var s2 := RunAction(c, table, s1, polls - 1);
        FollowsTrans(c, table, s, s1, s2); s2
  }

  /** One `getIRData` call consumes one input element and touches nothing else that `Follows`
      speaks about. */
  lemma GetFollows(c: Consts, table: seq<Entry>, s: Dispatcher)
    ensures Follows(c, table, s, GetIRCommand(c, s).1)
  {
    var s1 := GetIRCommand(c, s).1;
    assert s1.called == s.called;
    if |s.input| > 0 {
      assert s.input[|s.input| - |s1.input|..] == s1.input;
    }
    assert s1.called[..|s.called|] == s.called;
  }

  /** `checkIRInputForAlwaysExecutableCommand`: reports (and requests) a stop exactly when the
      received command is unknown or was locked out. */
  function CheckInput(c: Consts, table: seq<Entry>, s: Dispatcher): (r: (bool, Dispatcher))
    ensures Follows(c, table, s, r.1)
    ensures var got := GetIRCommand(c, s);
      r.0 <==> got.0 && CheckAndCall(c, table, got.1).0 in {IrCodeNotFound, FoundButRecursiveLock}
    ensures r.0 ==> r.1.stopRequested
    decreases |s.input|, 0, 0
  {
    var (ok, s1) := GetIRCommand(c, s);
    GetFollows(c, table, s);
    if !ok then (false, s1)
    else
      var (status, s2) := CheckAndCall(c, table, s1);
      FollowsTrans(c, table, s, s1, s2);
      if status == IrCodeNotFound || status == FoundButRecursiveLock then (true, s2.(stopRequested := true))
      else (false, s2)
  }

  /** The replay step of `loop(true)`: the rejected command becomes the received one, as a
      non-repeat, and the slot is cleared. */
  function Replay(c: Consts, s: Dispatcher): (r: Dispatcher)
    ensures r.received.command == s.rejected && !r.received.isRepeat && r.rejected == c.invalid
  {
    s.(received := s.received.(command := s.rejected, isRepeat := false), rejected := c.invalid)
  }

  /** `loop(runRejected)`: first a pending rejected command, then one poll for new input. */
  function Loop(c: Consts, table: seq<Entry>, s: Dispatcher, runRejected: bool): (r: Dispatcher)
    ensures Follows(c, table, s, r)
  {
    var s1 :=
      if runRejected && s.rejected != c.invalid then
        (var t := CheckAndCall(c, table, Replay(c, s)).1;
         FollowsRefl(c, table, s, Replay(c, s));
         FollowsTrans(c, table, s, Replay(c, s), t); t)
      else
        (FollowsRefl(c, table, s, s); s);
    var (ok, s2) := GetIRCommand(c, s1);
    GetFollows(c, table, s1);
    FollowsTrans(c, table, s, s1, s2);
    if ok then
      var s3 := CheckAndCall(c, table, s2).1;
      FollowsTrans(c, table, s, s2, s3); s3
    else s2
  }

  /** An accepted regular command holds the lock during its action: every command that starts
      while it runs is an execute-always one, and afterwards the lock is released and the current
      command is `COMMAND_INVALID` again. */
  lemma RegularCommandHoldsLock(c: Consts, table: seq<Entry>, s: Dispatcher)
    requires Inv(c, s) && !s.executing
    requires Decide(c, table, s).Invoke? && !Decide(c, table, s).entry.flags.executeAlways
    ensures var r := CheckAndCall(c, table, s);
            r.0 == Called && !r.1.executing && r.1.current == c.invalid
            && r.1.called[|s.called|] == s.received.command
            && forall i :: |s.called| < i < |r.1.called| ==> ExecuteAlways(table, r.1.called[i])
  {
    var d := Decide(c, table, s);
    var s2 := d.state.(called := d.state.called + [d.entry.code]);
    var after := RunAction(c, table, s2, d.entry.polls);
    assert CheckAndCall(c, table, s).1 == after.(executing := false, current := c.invalid);
    assert after.called[..|s2.called|] == s2.called;
  }

  /** A regular command that arrives while another one runs is not called: it takes the
      rejected-command slot (replacing whatever was there) and the answer is the lock status. */
  lemma LockedOutCommandTakesSlot(c: Consts, table: seq<Entry>, s: Dispatcher)
    requires s.executing && s.received.command != c.empty && Mapped(table, s.received.command)
    requires !EntryFor(table, s.received.command).flags.executeAlways
    requires !s.received.isRepeat && s.current != s.received.command
    ensures var r := CheckAndCall(c, table, s);
            r.0 == FoundButRecursiveLock && r.1.rejected == s.received.command
            && r.1.called == s.called && r.1.input == s.input
            && r.1.stopRequested == EntryFor(table, s.received.command).flags.isStop
  {
  }

  /** `loop(true)` with a pending rejected command calls that command first (it is replayed as a
      fresh press, so a non-repeatable command is accepted), before any new input is read. */
  lemma LoopReplaysRejectedFirst(c: Consts, table: seq<Entry>, s: Dispatcher)
    requires Inv(c, s) && !s.executing
    requires s.rejected != c.invalid && s.rejected != c.empty && Mapped(table, s.rejected)
    ensures var r := Loop(c, table, s, true);
            |r.called| > |s.called| && r.called[|s.called|] == s.rejected
  {
    var s1 := Replay(c, s);
    assert Decide(c, table, s1).Invoke?;
    var r1 := CheckAndCall(c, table, s1);
    var (ok, s2) := GetIRCommand(c, r1.1);
    if ok {
      var r2 := CheckAndCall(c, table, s2);
      assert r2.1.called[..|s2.called|] == s2.called;
      assert r2.1.called[|s.called|] == s2.called[|s.called|];
    }
  }

  /** IRLremote `getIRData`: a NEC repeat frame (address 0xFFFF, command 0) or the same command
      as last time is a repeat of the last command; anything else is a new command and is
      remembered. Returns the frame handed to the dispatcher and the new remembered command. */
  function NecGetIRData(c: Consts, last: nat, raw: IRData): (r: (IRData, nat))
    ensures r.0.address == raw.address
    ensures r.0.isRepeat <==> (raw.address == NecRepeatAddress && raw.command == NecRepeatCode) || raw.command == last
    ensures r.0.isRepeat ==> r.1 == last && r.0.command == (if last != c.empty then last else raw.command)
    ensures !r.0.isRepeat ==> r.1 == raw.command && r.0.command == raw.command
  {
    if (raw.address == NecRepeatAddress && raw.command == NecRepeatCode) || last == raw.command then
      (IRData(raw.address, if last != c.empty then last else raw.command, true), last)
    else
      (IRData(raw.address, raw.command, false), raw.command)
  }

  const NecRepeatAddress: nat := 0xFFFF
  const NecRepeatCode: nat := 0

  /** The receiver output turned into dispatcher input, starting from remembered command `last`. */
  function NecStream(c: Consts, last: nat, raws: seq<Option<IRData>>): (r: seq<Option<IRData>>)
    ensures |r| == |raws|
    // an empty poll stays empty, a frame stays a frame with its address
    ensures forall i :: 0 <= i < |raws| ==>
      (r[i].None? <==> raws[i].None?) && (raws[i].Some? ==> r[i].value.address == raws[i].value.address)
    decreases |raws|
  {
    if |raws| == 0 then []
    else match raws[0]
      case None => [None] + NecStream(c, last, raws[1..])
      case Some(raw) =>
        var (d, last') := NecGetIRData(c, last, raw);
        [Some(d)] + NecStream(c, last', raws[1..])
  }

  predicate IsRepeatFrame(f: Option<IRData>) {
    f.Some? && f.value.address == NecRepeatAddress && f.value.command == NecRepeatCode
  }

  /** Holding a key: after a frame with a new command `x`, every following NEC repeat frame (with
      empty polls in between) reaches the dispatcher as `x` flagged as a repeat -- and passes the
      address filter although it carries the repeat address. */
  lemma {:induction false} HeldKeyRepeatsCommand(c: Consts, last: nat, raws: seq<Option<IRData>>, i: nat)
    requires last != c.empty
    requires forall j :: 0 <= j < |raws| ==> raws[j].None? || IsRepeatFrame(raws[j])
    requires i < |raws| && raws[i].Some?
    ensures NecStream(c, last, raws)[i] == Some(IRData(NecRepeatAddress, last, true))
    ensures GetIRCommand(c, Initial(c, NecStream(c, last, raws)[i..])).0
    decreases i
  {
    if i > 0 {
      assert raws[1..][i - 1] == raws[i];
      var last' := if raws[0].None? then last else NecGetIRData(c, last, raws[0].value).1;
      assert last' == last;
      HeldKeyRepeatsCommand(c, last, raws[1..], i - 1);
      assert NecStream(c, last, raws)[i] == NecStream(c, last, raws[1..])[i - 1];
    }
  }

  /** Pressing the same key twice is indistinguishable from holding it: the second press is
      flagged as a repeat. */
  lemma SecondPressIsRepeat(c: Consts, last: nat, address: nat, command: nat)
    requires !(address == NecRepeatAddress && command == NecRepeatCode)
    ensures var first := NecGetIRData(c, last, IRData(address, command, false));
            NecGetIRData(c, first.1, IRData(address, command, false)).0.isRepeat
  {
  }

  /** A worked scenario: command 1 is a regular command whose action polls once; while it runs,
      regular command 2 arrives. Command 2 is locked out, parked in the slot and a stop is
      requested, ending command 1's action. The next `loop(true)` calls command 2. */
  const ExampleConsts := Consts(0, 0xFF, 0x75)
  const ExampleTable := [Entry(1, Flags(false, false, false), 1), Entry(2, Flags(false, false, false), 0)]
  const ExampleStart := Initial(ExampleConsts, [Some(IRData(0x75, 1, false)), Some(IRData(0x75, 2, false))])

  /** Command 1 has been received and its action is about to run, holding the lock. */
  const ExampleRunning := Dispatcher(true, true, 1, 0xFF, false, IRData(0x75, 1, false), [Some(IRData(0x75, 2, false))], [1])

  lemma ExampleTableLookup()
    ensures Mapped(ExampleTable, 1) && EntryFor(ExampleTable, 1) == ExampleTable[0]
    ensures Mapped(ExampleTable, 2) && EntryFor(ExampleTable, 2) == ExampleTable[1]
  {
    var table := ExampleTable;
    assert table[0].code == 1 && table[1].code == 2;
    assert table[1..][0] == table[1];
    assert First(table, 2) == 1 + First(table[1..], 2);
  }

  /** The poll inside command 1's action: command 2 is locked out and a stop is requested. */
  lemma ExamplePollLocksOut()
    ensures CheckInput(ExampleConsts, ExampleTable, ExampleRunning)
      == (true, ExampleRunning.(rejected := 2, stopRequested := true, received := IRData(0x75, 2, false), input := []))
  {
    var c := ExampleConsts;
    var table := ExampleTable;
    ExampleTableLookup();
    var (ok, t1) := GetIRCommand(c, ExampleRunning);
    assert ok && t1 == ExampleRunning.(received := IRData(0x75, 2, false), input := []);
    assert Decide(c, table, t1) == Done(FoundButRecursiveLock, t1.(stopRequested := false, rejected := 2));
  }

  lemma ExampleFirstLoop()
    ensures Loop(ExampleConsts, ExampleTable, ExampleStart, false)
      == Dispatcher(true, false, 0xFF, 2, true, IRData(0x75, 2, false), [], [1])
  {
    var c := ExampleConsts;
    var table := ExampleTable;
    ExampleTableLookup();
    var (ok, s1) := GetIRCommand(c, ExampleStart);
    assert ok && s1.received.command == 1;
    var d1 := Decide(c, table, s1);
    assert d1 == Invoke(table[0], ExampleRunning.(called := []));
    assert d1.state.(called := d1.state.called + [d1.entry.code]) == ExampleRunning;
    ExamplePollLocksOut();
    var after := CheckInput(c, table, ExampleRunning).1;
    assert RunAction(c, table, ExampleRunning, 1) == after;
    assert CheckAndCall(c, table, s1) == (Called, after.(executing := false, current := c.invalid));
  }

  lemma NestedRegularCommandIsDeferred()
    ensures var r1 := Loop(ExampleConsts, ExampleTable, ExampleStart, false);
            var r2 := Loop(ExampleConsts, ExampleTable, r1, true);
            r1.called == [1] && r1.rejected == 2 && r1.stopRequested && !r1.executing
            && r2.called == [1, 2] && r2.rejected == ExampleConsts.invalid
  {
    var c := ExampleConsts;
    var table := ExampleTable;
    ExampleFirstLoop();
    var r1 := Loop(c, table, ExampleStart, false);
    ExampleTableLookup();
    var p := Replay(c, r1);
    var d := Decide(c, table, p);
    assert d == Invoke(table[1], p.(stopRequested := false, justCalledRegular := true, executing := true, current := 2));
    assert d.state.called + [d.entry.code] == [1, 2] && d.entry.polls == 0;
    var after := d.state.(called := [1, 2]);
    assert RunAction(c, table, after, 0) == after;
    var s1 := after.(executing := false, current := c.invalid);
    assert CheckAndCall(c, table, p) == (Called, s1);
    assert GetIRCommand(c, s1) == (false, s1);
  }
}

=== FILE: feedback_led.dfy ===
/** The feedback LED that echoes IR activity (src/IRFeedbackLed.cpp.h). */
module FeedbackLed {
  import opened Gpio

  /** Build-time configuration of the feedback LED. */
  datatype LedConfig = LedConfig(
    dynamicPins: bool,          // IRMP_IRSND_ALLOW_DYNAMIC_PINS
    avr: bool,                  // __AVR__
    builtinActiveLow: bool,     // FEEDBACK_LED_IS_ACTIVE_LOW
    allowDisableExplicit: bool, // ALLOW_DISABLE_FEEDBACK_LED_EXPLICIT
    hasLedBuiltin: bool,        // LED_BUILTIN is defined
    ledBuiltin: nat)            // LED_BUILTIN

  /** Run-time feedback state: the enable flag and, with dynamic pins, the pin and its polarity. */
  datatype Led = Led(enabled: bool, pin: nat, activeLow: bool)

  /** Power-up state: disabled, no pin, polarity from the build configuration. */
  function Initial(cfg: LedConfig): Led {
    Led(false, 0, cfg.builtinActiveLow)
  }

  /** The pin the LED is driven on. */
  function LedPin(cfg: LedConfig, s: Led): nat {
    if cfg.dynamicPins then s.pin else cfg.ledBuiltin
  }

  /** `irmp_irsnd_LEDFeedback`: set the enable flag; enabling configures the pin and switches the LED off. */
  function LEDFeedback(cfg: LedConfig, s: Led, enable: bool): (r: Out<Led>)
    ensures r.state == s.(enabled := enable)
    ensures enable && cfg.dynamicPins ==>
      r.ops == (if s.pin != 0 then [Mode(s.pin, true), Write(s.pin, InactiveLevel(s.activeLow))] else [])
    ensures enable && !cfg.dynamicPins ==>
      r.ops == [Mode(cfg.ledBuiltin, true), Write(cfg.ledBuiltin, InactiveLevel(cfg.builtinActiveLow))]
    ensures !enable && !cfg.allowDisableExplicit ==> r.ops == []
    ensures !enable && cfg.allowDisableExplicit && (cfg.dynamicPins ==> s.pin != 0) ==>
      r.ops == [Mode(LedPin(cfg, s), false), Write(LedPin(cfg, s), Low)]
    ensures !enable && cfg.allowDisableExplicit && cfg.dynamicPins && s.pin == 0 ==> r.ops == []
  {
    var ops :=
      if enable then
        if cfg.dynamicPins then
          if s.pin != 0 then
            [Mode(s.pin, true), if s.activeLow then Write(s.pin, High) else Write(s.pin, Low)]
          else []
        else
          [Mode(cfg.ledBuiltin, true), if cfg.builtinActiveLow then Write(cfg.ledBuiltin, High) else Write(cfg.ledBuiltin, Low)]
      else if cfg.allowDisableExplicit then
        if cfg.dynamicPins then
          if s.pin != 0 then [Mode(s.pin, false), Write(s.pin, Low)] else []
        else [Mode(cfg.ledBuiltin, false), Write(cfg.ledBuiltin, Low)]
      else [];
    Out(s.(enabled := enable), ops)
  }

  /** `irmp_irsnd_SetFeedbackLED`: switch the LED on or off, honouring its polarity where the build does. */
  function SetFeedbackLED(cfg: LedConfig, s: Led, on: bool): (ops: seq<Op>)
    ensures cfg.dynamicPins && s.pin == 0 ==> ops == []
    ensures cfg.dynamicPins && s.pin != 0 ==>
      ops == [Write(s.pin, if on then ActiveLevel(s.activeLow) else InactiveLevel(s.activeLow))]
    ensures !cfg.dynamicPins && cfg.avr ==> ops == [Write(cfg.ledBuiltin, if on then High else Low)]
    ensures !cfg.dynamicPins && !cfg.avr ==>
      ops == [Write(cfg.ledBuiltin, if on then ActiveLevel(cfg.builtinActiveLow) else InactiveLevel(cfg.builtinActiveLow))]
  {
    if cfg.dynamicPins then
      if s.pin != 0 then
        if s.activeLow then [Write(s.pin, FromBool(!on))] else [Write(s.pin, FromBool(on))]
      else []
    else if cfg.avr then
      [Write(cfg.ledBuiltin, FromBool(on))]
    else if cfg.builtinActiveLow then
      [Write(cfg.ledBuiltin, FromBool(!on))]
    else
      [Write(cfg.ledBuiltin, FromBool(on))]
  }

  /** Enabling leaves the LED at the level that `SetFeedbackLED(false)` drives, except for an
      active-low built-in LED on AVR, where `SetFeedbackLED` ignores the polarity. */
  lemma EnableLeavesLedOff(cfg: LedConfig, s: Led, l: Level)
    requires cfg.dynamicPins ==> s.pin != 0
    requires !cfg.dynamicPins && cfg.avr ==> !cfg.builtinActiveLow
    ensures LevelAfter(l, LedPin(cfg, s), LEDFeedback(cfg, s, true).ops)
         == LevelAfter(l, LedPin(cfg, s), SetFeedbackLED(cfg, s, false))
  {
  }

  /** On AVR without dynamic pins an active-low built-in LED is lit by `SetFeedbackLED(false)`
      although enabling had switched it dark. */
  lemma AvrIgnoresBuiltinPolarity(cfg: LedConfig, s: Led)
    requires !cfg.dynamicPins && cfg.avr && cfg.builtinActiveLow
    ensures LEDFeedback(cfg, s, true).ops[1] == Write(cfg.ledBuiltin, High)
    ensures SetFeedbackLED(cfg, s, false) == [Write(cfg.ledBuiltin, Low)]
  {
  }
}

=== FILE: gpio.dfy ===
/** The digital I/O boundary: pin levels and the pin operations the core performs. */
module Gpio {

  datatype Level = Low | High

  function Not(l: Level): Level {
    if l == Low then High else Low
  }

  function FromBool(b: bool): Level {
    if b then High else Low
  }

  /** The level that switches a device on, for a given polarity. */
  function ActiveLevel(activeLow: bool): Level {
    if activeLow then Low else High
  }

  function InactiveLevel(activeLow: bool): Level {
    Not(ActiveLevel(activeLow))
  }

  /** A pin-mode change (`pinMode`) or a level write (`digitalWrite`). */
  datatype Op = Mode(pin: nat, output: bool) | Write(pin: nat, level: Level)

  /** A new state together with the pin operations performed to reach it, in order. */
  datatype Out<S> = Out(state: S, ops: seq<Op>)

  predicate WritesTo(ops: seq<Op>, pin: nat) {
    exists i :: 0 <= i < |ops| && ops[i].Write? && ops[i].pin == pin
  }

  /** The level a pin holds after `ops`, starting from `level`. */
  function LevelAfter(level: Level, pin: nat, ops: seq<Op>): (r: Level)
    ensures !WritesTo(ops, pin) ==> r == level
    ensures |ops| > 0 && ops[|ops| - 1].Write? && ops[|ops| - 1].pin == pin ==> r == ops[|ops| - 1].level
  {
    if |ops| == 0 then level
    else
      var last := ops[|ops| - 1];
      if last.Write? && last.pin == pin then last.level
      else
        assert !WritesTo(ops, pin) ==> !WritesTo(ops[..|ops| - 1], pin) by {
          if WritesTo(ops[..|ops| - 1], pin) {
            var i :| 0 <= i < |ops| - 1 && ops[..|ops| - 1][i].Write? && ops[..|ops| - 1][i].pin == pin;
            assert ops[i].Write? && ops[i].pin == pin;
          }
        }
        LevelAfter(level, pin, ops[..|ops| - 1])
  }
}

=== FILE: irsnd_output.dfy ===
/** Switching the IR output on and off, and the initialisation overloads
    (src/irsndArduinoExt.cpp.h). */
module IrsndOutput {
  import opened Gpio
  import FeedbackLed

  /** Build-time configuration: output polarity (IR_OUTPUT_IS_ACTIVE_LOW) and the feedback LED. */
  datatype OutputConfig = OutputConfig(activeLow: bool, led: FeedbackLed.LedConfig)

  /** `irsnd_is_on`, the output pin (`IRSND_OUTPUT_PIN`) and the feedback LED state. */
  datatype Irsnd = Irsnd(isOn: bool, pin: nat, led: FeedbackLed.Led)

  /** The feedback writes `irsnd_on` (on) or `irsnd_off` (not on) performs when feedback is enabled. */
  function FeedbackOps(cfg: OutputConfig, s: Irsnd, on: bool): (ops: seq<Op>)
    ensures !s.led.enabled ==> ops == []
    ensures forall i :: 0 <= i < |ops| ==> ops[i].Write? && ops[i].pin == FeedbackLed.LedPin(cfg.led, s.led)
    // with dynamic pins the LED goes through `irmp_irsnd_SetFeedbackLED`
    ensures s.led.enabled && cfg.led.dynamicPins ==> ops == FeedbackLed.SetFeedbackLED(cfg.led, s.led, on)
    // with fixed pins LED_BUILTIN is lit (on) or darkened (off), honouring FEEDBACK_LED_IS_ACTIVE_LOW
    ensures s.led.enabled && !cfg.led.dynamicPins ==>
      ops == [Write(cfg.led.ledBuiltin, if on then ActiveLevel(cfg.led.builtinActiveLow) else InactiveLevel(cfg.led.builtinActiveLow))]
  {
    if !s.led.enabled then []
    else if cfg.led.dynamicPins then FeedbackLed.SetFeedbackLED(cfg.led, s.led, on)
    else if cfg.led.builtinActiveLow then [Write(cfg.led.ledBuiltin, FromBool(!on))]
    else [Write(cfg.led.ledBuiltin, FromBool(on))]
  }

  /** `irsnd_on`: idempotent; from off it updates the feedback LED, drives the output active
      and sets `irsnd_is_on`. */
  function On(cfg: OutputConfig, s: Irsnd): (r: Out<Irsnd>)
    ensures r.state.isOn
    ensures s.isOn ==> r == Out(s, [])
    ensures !s.isOn ==> r.state == s.(isOn := true)
    ensures !s.isOn ==> |r.ops| > 0 && r.ops[|r.ops| - 1] == Write(s.pin, ActiveLevel(cfg.activeLow))
    ensures !s.isOn && !s.led.enabled ==> r.ops == [Write(s.pin, ActiveLevel(cfg.activeLow))]
    // with feedback enabled the LED is switched on before the output is driven
    ensures !s.isOn ==> r.ops == FeedbackOps(cfg, s, true) + [Write(s.pin, ActiveLevel(cfg.activeLow))]
  {
    if s.isOn then Out(s, [])
    else
      var drive := if cfg.activeLow then Write(s.pin, Low) else Write(s.pin, High);
      Out(s.(isOn := true), FeedbackOps(cfg, s, true) + [drive])
  }

  /** `irsnd_off`: the mirror image of `On`. */
  function Off(cfg: OutputConfig, s: Irsnd): (r: Out<Irsnd>)
    ensures !r.state.isOn
    ensures !s.isOn ==> r == Out(s, [])
    ensures s.isOn ==> r.state == s.(isOn := false)
    ensures s.isOn ==> |r.ops| > 0 && r.ops[|r.ops| - 1] == Write(s.pin, InactiveLevel(cfg.activeLow))
    ensures s.isOn && !s.led.enabled ==> r.ops == [Write(s.pin, InactiveLevel(cfg.activeLow))]
    // with feedback enabled the LED is switched off before the output is released
    ensures s.isOn ==> r.ops == FeedbackOps(cfg, s, false) + [Write(s.pin, InactiveLevel(cfg.activeLow))]
  {
    if !s.isOn then Out(s, [])
    else
      var drive := if cfg.activeLow then Write(s.pin, High) else Write(s.pin, Low);
      Out(s.(isOn := false), FeedbackOps(cfg, s, false) + [drive])
  }

  /** The level that lights the feedback LED: the run-time polarity with dynamic pins, the
      FEEDBACK_LED_IS_ACTIVE_LOW polarity of LED_BUILTIN otherwise. */
  function LitLevel(cfg: OutputConfig, s: Irsnd): Level {
    if cfg.led.dynamicPins then ActiveLevel(s.led.activeLow) else ActiveLevel(cfg.led.builtinActiveLow)
  }

  /** With feedback enabled and the LED on a pin of its own, the LED follows the output: `On`
      lights it and the following `Off` darkens it again. */
  lemma FeedbackFollowsOutput(cfg: OutputConfig, s: Irsnd, l: Level)
    requires !s.isOn && s.led.enabled && FeedbackLed.LedPin(cfg.led, s.led) != s.pin
    requires cfg.led.dynamicPins ==> s.led.pin != 0
    ensures var led := FeedbackLed.LedPin(cfg.led, s.led);
            var on := On(cfg, s);
            LevelAfter(l, led, on.ops) == LitLevel(cfg, s)
            && LevelAfter(l, led, Off(cfg, on.state).ops) == Not(LitLevel(cfg, s))
  {
    var led := FeedbackLed.LedPin(cfg.led, s.led);
    var on := On(cfg, s);
    var lit := FeedbackOps(cfg, s, true);
    assert on.ops[..|on.ops| - 1] == lit;
    var off := Off(cfg, on.state).ops;
    assert off[..|off| - 1] == FeedbackOps(cfg, on.state, false);
  }

  /** Switching on twice performs nothing the second time. */
  lemma OnIdempotent(cfg: OutputConfig, s: Irsnd)
    ensures On(cfg, On(cfg, s).state) == Out(On(cfg, s).state, [])
  {
  }

  /** Switching on and then off restores the state and leaves the output inactive. */
  lemma OnOffRoundTrip(cfg: OutputConfig, s: Irsnd, l: Level)
    requires !s.isOn
    ensures Off(cfg, On(cfg, s).state).state == s
    ensures LevelAfter(LevelAfter(l, s.pin, On(cfg, s).ops), s.pin, Off(cfg, On(cfg, s).state).ops)
         == InactiveLevel(cfg.activeLow)
  {
  }

  /** The feedback LED is written only when feedback is enabled and the output actually changes. */
  lemma FeedbackOnlyOnTransition(cfg: OutputConfig, s: Irsnd, on: bool)
    requires !s.led.enabled || s.isOn == on
    ensures (if on then On(cfg, s) else Off(cfg, s)).ops
         == (if s.isOn == on then [] else [Write(s.pin, if on then ActiveLevel(cfg.activeLow) else InactiveLevel(cfg.activeLow))])
  {
  }

  /** `irsnd_init(pin, led, activeLow)`: store the pin and polarity, enable feedback exactly when
      `led` is not 0, and make the output pin an output. */
  function Init(cfg: OutputConfig, s: Irsnd, pin: nat, ledPin: nat, ledActiveLow: bool): (r: Out<Irsnd>)
    requires cfg.led.dynamicPins
    ensures r.state == s.(pin := pin, led := FeedbackLed.Led(ledPin != 0, ledPin, ledActiveLow))
    ensures |r.ops| > 0 && r.ops[|r.ops| - 1] == Mode(pin, true)
    ensures ledPin == 0 ==> r.ops == [Mode(pin, true)]
    ensures ledPin != 0 ==> r.ops == [Mode(ledPin, true), Write(ledPin, InactiveLevel(ledActiveLow)), Mode(pin, true)]
  {
    var led := s.led.(pin := ledPin, activeLow := ledActiveLow);
    var fb := FeedbackLed.LEDFeedback(cfg.led, led, ledPin != 0);
    Out(s.(pin := pin, led := fb.state), fb.ops + [Mode(pin, true)])
  }

  /** `irsnd_init(pin, led)`: as `Init`, keeping the stored LED polarity. */
  function InitWithLed(cfg: OutputConfig, s: Irsnd, pin: nat, ledPin: nat): (r: Out<Irsnd>)
    requires cfg.led.dynamicPins
    ensures r.state.led == FeedbackLed.Led(ledPin != 0, ledPin, s.led.activeLow)
    ensures r.state.pin == pin && r.state.isOn == s.isOn
    ensures ledPin == 0 ==> r.ops == [Mode(pin, true)]
    ensures ledPin != 0 ==> r.ops == [Mode(ledPin, true), Write(ledPin, InactiveLevel(s.led.activeLow)), Mode(pin, true)]
  {
    Init(cfg, s, pin, ledPin, s.led.activeLow)
  }

  /** `irsnd_init(pin)` as written: feedback is decided by the previously stored LED pin, and only
      afterwards is the LED pin set to LED_BUILTIN. */
  function InitPinOnly(cfg: OutputConfig, s: Irsnd, pin: nat): (r: Out<Irsnd>)
    requires cfg.led.dynamicPins
    ensures r.state.led.enabled <==> s.led.pin != 0
    ensures r.state.led.pin == if cfg.led.hasLedBuiltin then cfg.led.ledBuiltin else s.led.pin
    ensures r.state.pin == pin && r.state.led.activeLow == s.led.activeLow && r.state.isOn == s.isOn
    // the LED written is the previously stored pin, not LED_BUILTIN
    ensures s.led.pin == 0 ==> r.ops == [Mode(pin, true)]
    ensures s.led.pin != 0 ==>
      r.ops == [Mode(s.led.pin, true), Write(s.led.pin, InactiveLevel(s.led.activeLow)), Mode(pin, true)]
  {
    var r := Init(cfg, s, pin, s.led.pin, s.led.activeLow);
    if cfg.led.hasLedBuiltin then Out(r.state.(led := r.state.led.(pin := cfg.led.ledBuiltin)), r.ops) else r
  }

  /** Calling `irsnd_init(pin)` twice on a board with a built-in LED enables the feedback LED on the
      second call, although the first call left it disabled. */
  lemma InitPinOnlyTwiceEnablesFeedback(cfg: OutputConfig, s: Irsnd, pin: nat)
    requires cfg.led.dynamicPins && cfg.led.hasLedBuiltin && cfg.led.ledBuiltin != 0
    requires s.led.pin == 0
    ensures !InitPinOnly(cfg, s, pin).state.led.enabled
    ensures InitPinOnly(cfg, InitPinOnly(cfg, s, pin).state, pin).state.led.enabled
  {
  }

  /** `irsnd_init(pin)` as its comment describes it: initialise with LED pin 0, so feedback is
      never enabled and the LED is never written, then remember LED_BUILTIN for later use. */
  function InitPinOnlyWithoutFeedback(cfg: OutputConfig, s: Irsnd, pin: nat): (r: Out<Irsnd>)
    requires cfg.led.dynamicPins
    ensures !r.state.led.enabled
    ensures r.ops == [Mode(pin, true)]
    ensures r.state.led.pin == if cfg.led.hasLedBuiltin then cfg.led.ledBuiltin else 0
  {
    var r := Init(cfg, s, pin, 0, s.led.activeLow);
    if cfg.led.hasLedBuiltin then Out(r.state.(led := r.state.led.(pin := cfg.led.ledBuiltin)), r.ops) else r
  }

  /** The corrected overload keeps feedback disabled however often it is called. */
  lemma InitPinOnlyWithoutFeedbackRepeatable(cfg: OutputConfig, s: Irsnd, pin: nat)
    requires cfg.led.dynamicPins
    ensures InitPinOnlyWithoutFeedback(cfg, InitPinOnlyWithoutFeedback(cfg, s, pin).state, pin)
         == InitPinOnlyWithoutFeedback(cfg, s, pin)
  {
  }

  /** `irsnd_init()` for fixed pins: only the output pin is made an output. */
  function InitFixed(s: Irsnd): (r: Out<Irsnd>)
    ensures r.state == s && r.ops == [Mode(s.pin, true)]
  {
    Out(s, [Mode(s.pin, true)])
  }
}

=== FILE: isr_tick.dfy ===
/** The body of the timer interrupt in IRTimer.hpp: while a frame is being sent it generates the
    IR carrier and calls the encoder (`irsnd_ISR`) on every fourth tick; otherwise, when the timer
    is shared, it calls the decoder (`irmp_ISR`). Both procedures are opaque here: the encoder is
    an oracle indexed by its call number, the decoder call is an event. */
module IsrTick {
  import opened Bits
  import opened Gpio
  import opened IrsndOutput
  import opened Timer2

  /** Which parts of the ISR are compiled: receive only, send only, or both on one timer
      (`USE_ONE_TIMER_FOR_IRMP_AND_IRSND`). */
  datatype Mode = ReceiveOnly | SendOnly | Shared

  /** `IRSND_GENERATE_NO_SEND_RF` (the output is held active instead of carrying the carrier). */
  datatype Config = Config(mode: Mode, noSendRf: bool, out: OutputConfig)

  /** The `irsnd_on` / `irsnd_off` call an encoder step makes, if any. */
  datatype Switch = Keep | SwitchOn | SwitchOff

  /** What one `irsnd_ISR` call does as seen from the timer ISR: its return value (false at the
      end of a frame), the output switch it performs and `irsnd_busy` afterwards. */
  datatype EncoderStep = EncoderStep(more: bool, switch: Switch, busy: bool)

  datatype Event = Pin(op: Op) | CallIrsnd | CallIrmp | RestoreTimer | InterruptOff

  /** `sDivider`, `irsnd_busy`, the output state, the timer registers, the saved timer registers
      and the number of `irsnd_ISR` calls made so far. */
  datatype Isr = Isr(divider: u8, busy: bool, send: Irsnd, timer: Regs, saved: Snapshot, calls: nat)

  datatype Step = Step(state: Isr, events: seq<Event>)

  /** Power-up state: the static divider and the saved registers are zero. */
  function Initial(send: Irsnd, timer: Regs): Isr {
    Isr(0, false, send, timer, Snapshot(0, 0, 0, 0, 0), 0)
  }

  /** The send part of the ISR runs on this tick. */
  predicate Sending(cfg: Config, s: Isr) {
    cfg.mode != ReceiveOnly && s.busy
  }

  function PinEvents(ops: seq<Op>): (r: seq<Event>)
    ensures |r| == |ops|
    ensures forall i :: 0 <= i < |ops| ==> r[i] == Pin(ops[i])
    ensures CallIrsnd !in r && CallIrmp !in r && RestoreTimer !in r
  {
    seq(|ops|, i requires 0 <= i < |ops| => Pin(ops[i]))
  }

  function Apply(cfg: Config, send: Irsnd, sw: Switch): Out<Irsnd> {
    match sw
    case Keep => Out(send, [])
    case SwitchOn => On(cfg.out, send)
    case SwitchOff => Off(cfg.out, send)
  }

  /** The level written to the output pin on a sending tick. */
  function CarrierLevel(cfg: Config, s: Isr): Level {
    if !s.send.isOn then InactiveLevel(cfg.out.activeLow)
    else if cfg.noSendRf then ActiveLevel(cfg.out.activeLow)
    else if s.divider % 2 == 1 then InactiveLevel(cfg.out.activeLow)
    else ActiveLevel(cfg.out.activeLow)
  }

  /** The tick on which the divider runs out: the encoder is called once; if it reports the end
      of the frame the saved timer comes back (and, without a shared timer, its interrupt is
      switched off) and the divider is left at 1, otherwise the divider restarts at 4. */
  function EncoderCall(cfg: Config, s: Isr, step: EncoderStep, write: Event): (r: Step)
    requires cfg.mode != ReceiveOnly && write.Pin?
    ensures |r.events| >= 2 && r.events[0] == write && r.events[1] == CallIrsnd && CallIrmp !in r.events
    ensures r.state.calls == s.calls + 1 && r.state.busy == step.busy && r.state.saved == s.saved
    ensures step.switch == Keep ==> r.state.send == s.send
    ensures step.more ==> r.state.divider == 4 && r.state.timer == s.timer && RestoreTimer !in r.events
    ensures !step.more ==> r.state.divider == 1 && RestoreTimer in r.events
    ensures !step.more && cfg.mode == Shared ==> SameConfig(r.state.timer, Restore(s.timer, s.saved))
    ensures !step.more && cfg.mode == SendOnly ==> r.state.timer == Restore(s.timer, s.saved).(timsk2 := 0)
  {
    var sw := Apply(cfg, s.send, step.switch);
    var s1 := s.(send := sw.state, busy := step.busy, calls := s.calls + 1);
    var encoder := [write, CallIrsnd] + PinEvents(sw.ops);
    if step.more then Step(s1.(divider := 4), encoder)
    else
      var restored := Restore(s.timer, s.saved);
      if cfg.mode == Shared then Step(s1.(divider := 1, timer := restored), encoder + [RestoreTimer])
      else Step(s1.(divider := 1, timer := DisableInterrupt(restored)), encoder + [RestoreTimer, InterruptOff])
  }

  /** The send part: carrier level, divider count-down, and the encoder call with its frame-end
      handling. */
  function SendPart(cfg: Config, s: Isr, step: EncoderStep): (r: Step)
    requires cfg.mode != ReceiveOnly
    // the carrier: inactive when the divider is odd before the decrement, active when even
    ensures |r.events| > 0 && r.events[0] == Pin(Write(s.send.pin,
      if s.send.isOn && (cfg.noSendRf || s.divider % 2 == 0) then ActiveLevel(cfg.out.activeLow)
      else InactiveLevel(cfg.out.activeLow)))
    ensures CallIrmp !in r.events
    // the encoder runs exactly when the decremented divider reaches zero
    ensures CallIrsnd in r.events <==> s.divider == 1
    ensures s.divider != 1 ==> r.state == s.(divider := (s.divider + 255) % 256) && |r.events| == 1
    ensures s.divider == 1 ==> r == EncoderCall(cfg, s, step, r.events[0])
  {
    var write := Pin(Write(s.send.pin, CarrierLevel(cfg, s)));
    var d := ToU8(s.divider - 1);
    if d != 0 then Step(s.(divider := d), [write])
    else EncoderCall(cfg, s, step, write)
  }

  /** One timer interrupt. `step` is what `irsnd_ISR` would do if it is called on this tick. */
  function Tick(cfg: Config, s: Isr, step: EncoderStep): (r: Step)
    // the decoder runs exactly when nothing is being sent, and never together with the encoder
    ensures CallIrmp in r.events <==> cfg.mode == ReceiveOnly || (cfg.mode == Shared && !s.busy)
    ensures !(CallIrmp in r.events && CallIrsnd in r.events)
    ensures !Sending(cfg, s) ==> r.state == s && r.events == (if cfg.mode == SendOnly then [] else [CallIrmp])
    ensures Sending(cfg, s) ==> r == SendPart(cfg, s, step)
  {
    if cfg.mode == ReceiveOnly then Step(s, [CallIrmp])
    else if s.busy then SendPart(cfg, s, step)
    else if cfg.mode == Shared then Step(s, [CallIrmp])
    else Step(s, [])
  }

  /** `n` consecutive interrupts; the k-th encoder call does what `oracle(k)` says. */
  function Run(cfg: Config, s: Isr, oracle: nat -> EncoderStep, n: nat): Step
    decreases n
  {
    if n == 0 then Step(s, [])
    else
      var before := Run(cfg, s, oracle, n - 1);
      var t := Tick(cfg, before.state, oracle(before.state.calls));
      Step(t.state, before.events + t.events)
  }

  /** The events of the `j`-th interrupt (counting from 0) of a run: a run's trace is the traces
      of its ticks one after the other. */
  function TickEvents(cfg: Config, s: Isr, oracle: nat -> EncoderStep, j: nat): seq<Event> {
    var before := Run(cfg, s, oracle, j).state;
    Tick(cfg, before, oracle(before.calls)).events
  }

  /** A run one tick longer appends that tick's events to the trace. */
  lemma RunAppendsTick(cfg: Config, s: Isr, oracle: nat -> EncoderStep, j: nat)
    ensures Run(cfg, s, oracle, j + 1).events == Run(cfg, s, oracle, j).events + TickEvents(cfg, s, oracle, j)
  {
  }

  /** `levels` are the levels the first `|levels|` ticks of the run write to the output pin, as
      the first event of each tick. */
  predicate Writes(cfg: Config, s: Isr, oracle: nat -> EncoderStep, levels: seq<Level>) {
    forall j :: 0 <= j < |levels| ==>
      |TickEvents(cfg, s, oracle, j)| > 0 && TickEvents(cfg, s, oracle, j)[0] == Pin(Write(s.send.pin, levels[j]))
  }

  lemma WritesStep(cfg: Config, s: Isr, oracle: nat -> EncoderStep, levels: seq<Level>, level: Level)
    requires Writes(cfg, s, oracle, levels)
    requires |TickEvents(cfg, s, oracle, |levels|)| > 0
    requires TickEvents(cfg, s, oracle, |levels|)[0] == Pin(Write(s.send.pin, level))
    ensures Writes(cfg, s, oracle, levels + [level])
  {
    var next := levels + [level];
    forall j | 0 <= j < |next|
      ensures |TickEvents(cfg, s, oracle, j)| > 0 && TickEvents(cfg, s, oracle, j)[0] == Pin(Write(s.send.pin, next[j]))
    {
      if j < |levels| {
        assert next[j] == levels[j];
      }
    }
  }

  /** Ticks from a divider value to the encoder call: the divider is a `uint8_t`, so 0 counts
      down through 255. */
  function Countdown(d: u8): nat {
    if d == 0 then 256 else d
  }

  /** While sending, the encoder is not called for `Countdown(divider) - 1` ticks (only the divider
      moves) and is called, once, on the tick after. */
  lemma CountdownToEncoderCall(cfg: Config, s: Isr, oracle: nat -> EncoderStep, n: nat)
    requires Sending(cfg, s) && n <= Countdown(s.divider)
    ensures n < Countdown(s.divider) ==>
      Run(cfg, s, oracle, n).state == s.(divider := ToU8(s.divider - n))
      && CallIrsnd !in Run(cfg, s, oracle, n).events
    ensures n == Countdown(s.divider) ==>
      Run(cfg, s, oracle, n).state.calls == s.calls + 1 && CallIrsnd in Run(cfg, s, oracle, n).events
  {
    if n < Countdown(s.divider) {
      CountingDown(cfg, s, oracle, n);
    } else {
      CountingDown(cfg, s, oracle, n - 1);
      var before := Run(cfg, s, oracle, n - 1);
      var b := before.state;
      CountdownStep(s.divider, n - 1);
      EncoderTick(cfg, b, oracle(b.calls));
      var t := Tick(cfg, b, oracle(b.calls));
      assert Run(cfg, s, oracle, n) == Step(t.state, before.events + t.events);
      assert (before.events + t.events)[|before.events| + 1] == CallIrsnd;
    }
  }

  /** After `k` sending ticks the divider has wrapped down by `k` and nothing else has changed,
      and the encoder has not been called. */
  predicate CountedDown(cfg: Config, s: Isr, oracle: nat -> EncoderStep, k: nat) {
    Run(cfg, s, oracle, k).state == s.(divider := ToU8(s.divider - k))
    && CallIrsnd !in Run(cfg, s, oracle, k).events
  }

  /** The ticks before the encoder call only move the divider. */
  lemma {:induction false} CountingDown(cfg: Config, s: Isr, oracle: nat -> EncoderStep, n: nat)
    requires Sending(cfg, s) && n < Countdown(s.divider)
    ensures CountedDown(cfg, s, oracle, n)
  {
    CountedDownNone(cfg, s, oracle);
    var k := 0;
    while k < n
      invariant k <= n && CountedDown(cfg, s, oracle, k)
    {
      CountdownAfter(cfg, s, oracle, k + 1);
      k := k + 1;
    }
  }

  /** No ticks, no change. */
  lemma CountedDownNone(cfg: Config, s: Isr, oracle: nat -> EncoderStep)
    ensures CountedDown(cfg, s, oracle, 0)
  {
    assert ToU8(s.divider - 0) == s.divider;
  }

  /** The `n`-th tick of a countdown, from the state the first `n - 1` ticks left. */
  lemma CountdownAfter(cfg: Config, s: Isr, oracle: nat -> EncoderStep, n: nat)
    requires Sending(cfg, s) && 0 < n < Countdown(s.divider)
    requires CountedDown(cfg, s, oracle, n - 1)
    ensures CountedDown(cfg, s, oracle, n)
  {
    var before := Run(cfg, s, oracle, n - 1);
    var b := before.state;
    CountdownStep(s.divider, n - 1);
    CountdownTick(cfg, b, oracle(b.calls));
    var t := Tick(cfg, b, oracle(b.calls));
    assert Run(cfg, s, oracle, n) == Step(t.state, before.events + t.events);
  }

  /** A sending tick before the divider runs out only counts down. */
  lemma CountdownTick(cfg: Config, s: Isr, step: EncoderStep)
    requires Sending(cfg, s) && s.divider != 1
    ensures Tick(cfg, s, step).state == s.(divider := (s.divider + 255) % 256)
    ensures CallIrsnd !in Tick(cfg, s, step).events
  {
    assert Tick(cfg, s, step) == SendPart(cfg, s, step);
  }

  /** The sending tick on which the divider runs out calls the encoder. */
  lemma EncoderTick(cfg: Config, s: Isr, step: EncoderStep)
    requires Sending(cfg, s) && s.divider == 1
    ensures Tick(cfg, s, step).state.calls == s.calls + 1
    ensures |Tick(cfg, s, step).events| >= 2 && Tick(cfg, s, step).events[1] == CallIrsnd
  {
    var r := SendPart(cfg, s, step);
    assert Tick(cfg, s, step) == r;
    assert r == EncoderCall(cfg, s, step, r.events[0]);
  }

  /** One step of the `uint8_t` count-down: the divider reaches 1 on the last step before the
      countdown ends, and otherwise wraps down by one. */
  lemma CountdownStep(d: u8, k: nat)
    requires k < Countdown(d)
    ensures ToU8(d - k) == 1 <==> k + 1 == Countdown(d)
    ensures ToU8(d - k) != 1 ==> (ToU8(d - k) + 255) % 256 == ToU8(d - (k + 1))
  {
    if d == 0 && k > 0 {
      DivUnique(d - k, 256, -1, 256 - k);
      DivUnique(d - (k + 1), 256, -1, 255 - k);
    }
  }

  /** After power-up the divider is zero, so the first encoder call of the first frame happens
      only on the 256th tick of sending. */
  lemma PowerUpDelay(cfg: Config, send: Irsnd, timer: Regs, oracle: nat -> EncoderStep)
    requires cfg.mode != ReceiveOnly
    ensures var s := Initial(send, timer).(busy := true);
            CallIrsnd !in Run(cfg, s, oracle, 255).events
            && CallIrsnd in Run(cfg, s, oracle, 256).events
  {
    var s := Initial(send, timer).(busy := true);
    CountdownToEncoderCall(cfg, s, oracle, 255);
    CountdownToEncoderCall(cfg, s, oracle, 256);
  }

  /** At the end of a frame the timer gets back the registers saved before sending (the receive
      set-up when the timer is shared) and the divider is left at 1, so the encoder is called on
      the very first tick of the next frame. */
  lemma FrameEndRestoresReceiveTimer(cfg: Config, s: Isr, step: EncoderStep, receive: Regs, next: EncoderStep)
    requires cfg.mode == Shared && s.busy && s.divider == 1 && !step.more
    requires s.saved == Store(receive)
    ensures var r := Tick(cfg, s, step).state;
            SameConfig(r.timer, receive)
            && CallIrsnd in Tick(cfg, r.(busy := true), next).events
  {
    var r := Tick(cfg, s, step).state;
    StoreRestoreRoundTrip(receive, s.timer);
  }

  /** Send-only build: the frame end switches the timer interrupt off. */
  lemma FrameEndDisablesSendOnlyTimer(cfg: Config, s: Isr, step: EncoderStep)
    requires cfg.mode == SendOnly && s.busy && s.divider == 1 && !step.more
    ensures Tick(cfg, s, step).state.timer.timsk2 == 0
    ensures Tick(cfg, s, step).events[|Tick(cfg, s, step).events| - 1] == InterruptOff
  {
  }

  /** After `i` ticks of an ongoing frame started at divider 4 whose encoder keeps going and
      leaves the output alone: the position in the four-tick cycle and the calls made. */
  predicate CarrierSteady(s: Isr, r: Isr, i: nat) {
    r == s.(divider := 4 - i % 4, calls := s.calls + i / 4)
  }

  /** One tick of steady sending keeps the carrier going: active on even ticks, inactive on odd. */
  lemma CarrierTick(cfg: Config, s: Isr, r: Isr, i: nat)
    requires cfg.mode != ReceiveOnly && !cfg.noSendRf && s.busy && s.send.isOn && CarrierSteady(s, r, i)
    ensures var t := Tick(cfg, r, EncoderStep(true, Keep, true));
            CarrierSteady(s, t.state, i + 1)
            && |t.events| > 0 && t.events[0] == Pin(Write(s.send.pin, CarrierAt(cfg, i)))
  {
    var step := EncoderStep(true, Keep, true);
    var t := SendPart(cfg, r, step);
    assert Tick(cfg, r, step) == t;
    QuarterStep(i);
    if r.divider == 1 {
      assert t == EncoderCall(cfg, r, step, t.events[0]);
    }
  }

  /** The carrier level of the `j`-th tick of steady sending. */
  function CarrierAt(cfg: Config, j: nat): Level {
    if j % 2 == 0 then ActiveLevel(cfg.out.activeLow) else InactiveLevel(cfg.out.activeLow)
  }

  /** The levels written by the first `n` ticks of steady sending: active, inactive, active, ... */
  function CarrierLevels(cfg: Config, n: nat): (r: seq<Level>)
    ensures |r| == n && forall j :: 0 <= j < n ==> r[j] == CarrierAt(cfg, j)
  {
    if n == 0 then [] else CarrierLevels(cfg, n - 1) + [CarrierAt(cfg, n - 1)]
  }

  /** Steady-state carrier generation: while the encoder keeps the output on and the frame going,
      the output alternates active, inactive, ... (a carrier at half the interrupt rate) and the
      encoder is called once every four interrupts. */
  method RunCarrier(cfg: Config, s: Isr, oracle: nat -> EncoderStep, n: nat) returns (levels: seq<Level>, r: Isr)
    requires cfg.mode != ReceiveOnly && !cfg.noSendRf && s.busy && s.send.isOn && s.divider == 4
    requires forall k :: oracle(k) == EncoderStep(true, Keep, true)
    ensures r == Run(cfg, s, oracle, n).state
    ensures r.divider == 4 - n % 4 && r.calls == s.calls + n / 4 && r.busy && r.send == s.send
    ensures levels == CarrierLevels(cfg, n)
    // the levels are those the run's ticks write to the output pin, each tick's first event
    ensures Writes(cfg, s, oracle, levels)
  {
    levels := [];
    r := s;
    var i := 0;
    while i < n
      invariant 0 <= i <= n
      invariant r == Run(cfg, s, oracle, i).state
      invariant CarrierSteady(s, r, i)
      invariant |levels| == i
      invariant levels == CarrierLevels(cfg, i)
      invariant Writes(cfg, s, oracle, levels)
    {
      var t := Tick(cfg, r, oracle(r.calls));
      CarrierRunStep(cfg, s, oracle, r, i, levels);
      levels := levels + [t.events[0].op.level];
      r := t.state;
      i := i + 1;
    }
  }

  /** One more tick of `RunCarrier`'s loop: the run, the cycle position and the recorded levels
      all advance together. */
  lemma CarrierRunStep(cfg: Config, s: Isr, oracle: nat -> EncoderStep, r: Isr, i: nat, levels: seq<Level>)
    requires cfg.mode != ReceiveOnly && !cfg.noSendRf && s.busy && s.send.isOn
    requires forall k :: oracle(k) == EncoderStep(true, Keep, true)
    requires r == Run(cfg, s, oracle, i).state && CarrierSteady(s, r, i)
    requires |levels| == i && levels == CarrierLevels(cfg, i) && Writes(cfg, s, oracle, levels)
    ensures var t := Tick(cfg, r, oracle(r.calls));
            |t.events| > 0 && t.events[0].Pin? && t.events[0].op.Write?
            && t.state == Run(cfg, s, oracle, i + 1).state && CarrierSteady(s, t.state, i + 1)
            && levels + [t.events[0].op.level] == CarrierLevels(cfg, i + 1)
            && Writes(cfg, s, oracle, levels + [t.events[0].op.level])
  {
    var step := oracle(r.calls);
    assert step == EncoderStep(true, Keep, true);
    var t := Tick(cfg, r, step);
    assert TickEvents(cfg, s, oracle, i) == t.events;
    CarrierTick(cfg, s, r, i);
    WritesStep(cfg, s, oracle, levels, CarrierAt(cfg, i));
  }

  /** How the position within a four-tick cycle advances. */
  lemma QuarterStep(i: nat)
    ensures i % 2 == (i % 4) % 2
    ensures i % 4 == 3 ==> (i + 1) % 4 == 0 && (i + 1) / 4 == i / 4 + 1
    ensures i % 4 != 3 ==> (i + 1) % 4 == i % 4 + 1 && (i + 1) / 4 == i / 4
  {
    var q, m := i / 4, i % 4;
    DivMod(i, 4);
    DivUnique(i, 2, 2 * q + m / 2, m % 2);
    if m == 3 {
      DivUnique(i + 1, 4, q + 1, 0);
    } else {
      DivUnique(i + 1, 4, q, m + 1);
    }
  }

  /** IR carrier frequency and the resulting rates (irsndArduinoExt.h): the interrupt runs at twice
      the carrier frequency, and the divide-by-four calls the encoder at half of it. */
  const IrsndIrFrequency: nat := 38_000
  const SendInterruptRate: nat := 2 * IrsndIrFrequency

  lemma SendRates()
    ensures SendInterruptRate / 2 == IrsndIrFrequency
    ensures SendInterruptRate / 4 == IrsndIrFrequency / 2 == 19_000
  {
  }
}

=== FILE: isr_tick_legacy.dfy ===
/** The older timer interrupt of IRTimer.cpp.h: while sending with the output on it toggles the
    output pin on every tick (reading the pin back), and it calls the encoder every fourth tick
    with the divider starting at, and always reset to, 4. */
module IsrTickLegacy {
  import opened Bits
  import opened Gpio
  import opened IrsndOutput
  import opened Timer2
  import opened IsrTick

  /** `sDivider`, `irsnd_busy`, the output state, the level the output pin holds, the timer
      registers, the saved timer registers and the number of `irsnd_ISR` calls so far. */
  datatype LegacyIsr = LegacyIsr(divider: u8, busy: bool, send: Irsnd, level: Level, timer: Regs, saved: Snapshot, calls: nat)

  datatype LegacyStep = LegacyStep(state: LegacyIsr, events: seq<Event>)

  /** Power-up state: the static divider is initialised to 4. */
  function LegacyInitial(send: Irsnd, level: Level, timer: Regs): LegacyIsr {
    LegacyIsr(4, false, send, level, timer, Snapshot(0, 0, 0, 0, 0), 0)
  }

  predicate LegacySending(cfg: Config, s: LegacyIsr) {
    cfg.mode != ReceiveOnly && s.busy
  }

  /** The level the pin is toggled to on this tick (unchanged while the output is off). */
  function Toggled(s: LegacyIsr): Level {
    if s.send.isOn then Not(s.level) else s.level
  }

  /** The toggle written at the start of a sending tick: one write while on, none while off. */
  function ToggleWrites(s: LegacyIsr): (r: seq<Event>)
    ensures |r| <= 1 && CallIrsnd !in r && CallIrmp !in r && RestoreTimer !in r
    ensures s.send.isOn <==> |r| == 1
  {
    if s.send.isOn then [Pin(Write(s.send.pin, Toggled(s)))] else []
  }

  /** The tick on which the divider runs out: after the toggle the encoder is called once and the
      divider goes back to 4 whatever it returns; at the end of a frame the saved timer comes
      back (and, without a shared timer, its interrupt is switched off). */
  function LegacyEncoderCall(cfg: Config, s: LegacyIsr, step: EncoderStep): (r: LegacyStep)
    requires cfg.mode != ReceiveOnly
    ensures |r.events| > |ToggleWrites(s)| && r.events[|ToggleWrites(s)|] == CallIrsnd
    ensures s.send.isOn ==> r.events[0] == Pin(Write(s.send.pin, Not(s.level)))
    ensures CallIrmp !in r.events
    ensures r.state.divider == 4 && r.state.calls == s.calls + 1 && r.state.busy == step.busy
    ensures r.state.saved == s.saved
    ensures step.switch == Keep ==> r.state.send == s.send && r.state.level == Toggled(s)
    ensures step.more ==> r.state.timer == s.timer && RestoreTimer !in r.events
    ensures !step.more ==> RestoreTimer in r.events
    ensures !step.more && cfg.mode == Shared ==> SameConfig(r.state.timer, Restore(s.timer, s.saved))
    ensures !step.more && cfg.mode == SendOnly ==> r.state.timer == Restore(s.timer, s.saved).(timsk2 := 0)
  {
    var sw := Apply(cfg, s.send, step.switch);
    var s1 := s.(divider := 4, busy := step.busy, send := sw.state,
                 level := LevelAfter(Toggled(s), s.send.pin, sw.ops), calls := s.calls + 1);
    var encoder := ToggleWrites(s) + [CallIrsnd] + PinEvents(sw.ops);
    if step.more then LegacyStep(s1, encoder)
    else
      var restored := Restore(s.timer, s.saved);
      if cfg.mode == Shared then LegacyStep(s1.(timer := restored), encoder + [RestoreTimer])
      else LegacyStep(s1.(timer := DisableInterrupt(restored)), encoder + [RestoreTimer, InterruptOff])
  }

  /** The send part: toggle while on, count down, call the encoder and handle the frame end. */
  function LegacySendPart(cfg: Config, s: LegacyIsr, step: EncoderStep): (r: LegacyStep)
    requires cfg.mode != ReceiveOnly
    // while on, the pin is toggled on every tick
    ensures s.send.isOn ==>
      |r.events| > 0 && r.events[0] == Pin(Write(s.send.pin, Not(s.level)))
    // while off, nothing is written to the pin except by the encoder
    ensures !s.send.isOn && s.divider != 1 ==> r.events == []
    ensures CallIrsnd in r.events <==> s.divider == 1
    ensures CallIrmp !in r.events
    ensures s.divider != 1 ==> r.state == s.(divider := (s.divider + 255) % 256, level := Toggled(s))
    // after an encoder call the divider is 4 whatever the encoder returned
    ensures s.divider == 1 ==> r == LegacyEncoderCall(cfg, s, step)
  {
    var d := ToU8(s.divider - 1);
    if d != 0 then LegacyStep(s.(divider := d, level := Toggled(s)), ToggleWrites(s))
    else LegacyEncoderCall(cfg, s, step)
  }

  /** One timer interrupt of the older ISR. */
  function LegacyTick(cfg: Config, s: LegacyIsr, step: EncoderStep): (r: LegacyStep)
    ensures CallIrmp in r.events <==> cfg.mode == ReceiveOnly || (cfg.mode == Shared && !s.busy)
    ensures !(CallIrmp in r.events && CallIrsnd in r.events)
    ensures !LegacySending(cfg, s) ==> r.state == s && CallIrsnd !in r.events
    ensures LegacySending(cfg, s) ==> r == LegacySendPart(cfg, s, step)
  {
    if cfg.mode == ReceiveOnly then LegacyStep(s, [CallIrmp])
    else if s.busy then LegacySendPart(cfg, s, step)
    else if cfg.mode == Shared then LegacyStep(s, [CallIrmp])
    else LegacyStep(s, [])
  }

  /** `n` consecutive interrupts; the k-th encoder call does what `oracle(k)` says. */
  function LegacyRun(cfg: Config, s: LegacyIsr, oracle: nat -> EncoderStep, n: nat): LegacyStep
    decreases n
  {
    if n == 0 then LegacyStep(s, [])
    else
      var before := LegacyRun(cfg, s, oracle, n - 1);
      var t := LegacyTick(cfg, before.state, oracle(before.state.calls));
      LegacyStep(t.state, before.events + t.events)
  }

  /** The events of the `j`-th interrupt (counting from 0) of a run. */
  function LegacyTickEvents(cfg: Config, s: LegacyIsr, oracle: nat -> EncoderStep, j: nat): seq<Event> {
    var before := LegacyRun(cfg, s, oracle, j).state;
    LegacyTick(cfg, before, oracle(before.calls)).events
  }

  /** A run one tick longer appends that tick's events to the trace. */
  lemma LegacyRunAppendsTick(cfg: Config, s: LegacyIsr, oracle: nat -> EncoderStep, j: nat)
    ensures LegacyRun(cfg, s, oracle, j + 1).events == LegacyRun(cfg, s, oracle, j).events + LegacyTickEvents(cfg, s, oracle, j)
  {
  }

  /** `levels` are the levels the first `|levels|` ticks of the run write to the output pin, as
      the first event of each tick. */
  predicate LegacyWrites(cfg: Config, s: LegacyIsr, oracle: nat -> EncoderStep, levels: seq<Level>) {
    forall j :: 0 <= j < |levels| ==>
      |LegacyTickEvents(cfg, s, oracle, j)| > 0 && LegacyTickEvents(cfg, s, oracle, j)[0] == Pin(Write(s.send.pin, levels[j]))
  }

  lemma LegacyWritesStep(cfg: Config, s: LegacyIsr, oracle: nat -> EncoderStep, levels: seq<Level>, level: Level)
    requires LegacyWrites(cfg, s, oracle, levels)
    requires |LegacyTickEvents(cfg, s, oracle, |levels|)| > 0
    requires LegacyTickEvents(cfg, s, oracle, |levels|)[0] == Pin(Write(s.send.pin, level))
    ensures LegacyWrites(cfg, s, oracle, levels + [level])
  {
    var next := levels + [level];
    forall j | 0 <= j < |next|
      ensures |LegacyTickEvents(cfg, s, oracle, j)| > 0 && LegacyTickEvents(cfg, s, oracle, j)[0] == Pin(Write(s.send.pin, next[j]))
    {
      if j < |levels| {
        assert next[j] == levels[j];
      }
    }
  }

  /** Over one four-tick cycle that starts at divider 4 and whose encoder call leaves the output
      alone, the pin ends at the level it started from, the divider is back at 4 and the encoder
      was called exactly once, on the fourth tick. */
  lemma FourTickCycle(cfg: Config, s: LegacyIsr, oracle: nat -> EncoderStep)
    requires LegacySending(cfg, s) && s.divider == 4
    requires oracle(s.calls).switch == Keep
    ensures var r := LegacyRun(cfg, s, oracle, 4);
            r.state.level == s.level && r.state.divider == 4 && r.state.send == s.send
            && r.state.calls == s.calls + 1
    ensures CallIrsnd !in LegacyRun(cfg, s, oracle, 3).events
  {
    var r1 := LegacyRun(cfg, s, oracle, 1);
    var r2 := LegacyRun(cfg, s, oracle, 2);
    var r3 := LegacyRun(cfg, s, oracle, 3);
    assert r1.state.divider == 3 && r1.state.calls == s.calls;
    assert r2.state.divider == 2 && r2.state.calls == s.calls;
    assert r3.state.divider == 1 && r3.state.calls == s.calls && r3.state.level == (if s.send.isOn then Not(s.level) else s.level);
    assert CallIrsnd !in r1.events && CallIrsnd !in r2.events;
  }

  /** After `i` ticks of an ongoing frame started at divider 4 whose encoder keeps going and
      leaves the output on: the position in the four-tick cycle, the calls made and the pin level. */
  predicate ToggleSteady(s: LegacyIsr, r: LegacyIsr, i: nat) {
    r == s.(divider := 4 - i % 4, calls := s.calls + i / 4, level := if i % 2 == 0 then s.level else Not(s.level))
  }

  /** The level after `i` ticks of steady toggling, toggled once more, is the level after `i + 1`
      ticks and the level written on the `i`-th tick. */
  lemma ToggleParity(start: Level, i: nat)
    ensures var at := if i % 2 == 0 then start else Not(start);
            Not(at) == (if (i + 1) % 2 == 0 then start else Not(start)) && Not(at) == ToggleAt(start, i)
  {
    if i % 2 == 0 {
      assert (i + 1) % 2 == 1;
    } else {
      assert (i + 1) % 2 == 0;
      assert Not(Not(start)) == start;
    }
  }

  /** One tick keeps the frame steady and toggles the pin. */
  lemma SteadyToggleTick(cfg: Config, s: LegacyIsr, r: LegacyIsr, i: nat)
    requires LegacySending(cfg, s) && s.send.isOn && ToggleSteady(s, r, i)
    ensures var t := LegacyTick(cfg, r, EncoderStep(true, Keep, true));
            ToggleSteady(s, t.state, i + 1)
            && |t.events| > 0 && t.events[0] == Pin(Write(s.send.pin, ToggleAt(s.level, i)))
  {
    var step := EncoderStep(true, Keep, true);
    assert LegacyTick(cfg, r, step) == LegacySendPart(cfg, r, step);
    QuarterStep(i);
    ToggleParity(s.level, i);
    if r.divider == 1 {
      ToggleEncoderTick(cfg, s, r, i);
    } else {
      ToggleCountdownTick(cfg, s, r, i);
    }
  }

  lemma ToggleEncoderTick(cfg: Config, s: LegacyIsr, r: LegacyIsr, i: nat)
    requires LegacySending(cfg, s) && s.send.isOn && ToggleSteady(s, r, i) && r.divider == 1
    requires i % 4 == 3 && (i + 1) % 4 == 0 && (i + 1) / 4 == i / 4 + 1
    requires Toggled(r) == if (i + 1) % 2 == 0 then s.level else Not(s.level)
    ensures var t := LegacyEncoderCall(cfg, r, EncoderStep(true, Keep, true));
            ToggleSteady(s, t.state, i + 1) && |t.events| > 0 && t.events[0] == Pin(Write(s.send.pin, Not(r.level)))
  {
    var t := LegacyEncoderCall(cfg, r, EncoderStep(true, Keep, true));
    assert t.state.timer == r.timer && t.state.send == r.send;
  }

  lemma ToggleCountdownTick(cfg: Config, s: LegacyIsr, r: LegacyIsr, i: nat)
    requires LegacySending(cfg, s) && s.send.isOn && ToggleSteady(s, r, i) && r.divider != 1
    requires i % 4 != 3 && (i + 1) % 4 == i % 4 + 1 && (i + 1) / 4 == i / 4
    requires Toggled(r) == if (i + 1) % 2 == 0 then s.level else Not(s.level)
    ensures var t := LegacySendPart(cfg, r, EncoderStep(true, Keep, true));
            ToggleSteady(s, t.state, i + 1) && |t.events| > 0 && t.events[0] == Pin(Write(s.send.pin, Not(r.level)))
  {
  }

  /** The level written on the `j`-th tick of steady toggling from level `start`. */
  function ToggleAt(start: Level, j: nat): Level {
    if j % 2 == 0 then Not(start) else start
  }

  /** Steady-state toggling: while the encoder keeps the output on and the frame going, the pin
      alternates from its starting level on every tick and the encoder is called every fourth. */
  method RunToggle(cfg: Config, s: LegacyIsr, oracle: nat -> EncoderStep, n: nat) returns (levels: seq<Level>, r: LegacyIsr)
    requires cfg.mode != ReceiveOnly && s.busy && s.send.isOn && s.divider == 4
    requires forall k :: oracle(k) == EncoderStep(true, Keep, true)
    ensures r == LegacyRun(cfg, s, oracle, n).state
    ensures r.divider == 4 - n % 4 && r.calls == s.calls + n / 4 && r.busy && r.send == s.send
    ensures r.level == if n % 2 == 0 then s.level else Not(s.level)
    ensures levels == ToggleLevels(s.level, n)
    // the levels are those the run's ticks write to the output pin, each tick's first event
    ensures LegacyWrites(cfg, s, oracle, levels)
  {
    levels := [];
    r := s;
    var i := 0;
    while i < n
      invariant 0 <= i <= n
      invariant r == LegacyRun(cfg, s, oracle, i).state
      invariant ToggleSteady(s, r, i)
      invariant |levels| == i
      invariant levels == ToggleLevels(s.level, i)
      invariant LegacyWrites(cfg, s, oracle, levels)
    {
      var t := LegacyTick(cfg, r, oracle(r.calls));
      ToggleRunStep(cfg, s, oracle, r, i, levels);
      levels := levels + [t.events[0].op.level];
      r := t.state;
      i := i + 1;
    }
  }

  /** One more tick of `RunToggle`'s loop: the run, the cycle position and the recorded levels
      all advance together. */
  lemma ToggleRunStep(cfg: Config, s: LegacyIsr, oracle: nat -> EncoderStep, r: LegacyIsr, i: nat, levels: seq<Level>)
    requires cfg.mode != ReceiveOnly && s.busy && s.send.isOn
    requires forall k :: oracle(k) == EncoderStep(true, Keep, true)
    requires r == LegacyRun(cfg, s, oracle, i).state && ToggleSteady(s, r, i)
    requires |levels| == i && levels == ToggleLevels(s.level, i) && LegacyWrites(cfg, s, oracle, levels)
    ensures var t := LegacyTick(cfg, r, oracle(r.calls));
            |t.events| > 0 && t.events[0].Pin? && t.events[0].op.Write?
            && t.state == LegacyRun(cfg, s, oracle, i + 1).state && ToggleSteady(s, t.state, i + 1)
            && levels + [t.events[0].op.level] == ToggleLevels(s.level, i + 1)
            && LegacyWrites(cfg, s, oracle, levels + [t.events[0].op.level])
  {
    var step := oracle(r.calls);
    assert step == EncoderStep(true, Keep, true);
    var t := LegacyTick(cfg, r, step);
    assert LegacyTickEvents(cfg, s, oracle, i) == t.events;
    SteadyToggleTick(cfg, s, r, i);
    LegacyWritesStep(cfg, s, oracle, levels, ToggleAt(s.level, i));
  }

  /** The levels written by the first `n` ticks of steady toggling from level `start`: the
      opposite level first, then alternating. */
  function ToggleLevels(start: Level, n: nat): (r: seq<Level>)
    ensures |r| == n && forall j :: 0 <= j < n ==> r[j] == ToggleAt(start, j)
  {
    if n == 0 then [] else ToggleLevels(start, n - 1) + [ToggleAt(start, n - 1)]
  }

  /** From power-up the first encoder call is on the fourth tick of sending. */
  lemma LegacyFirstCallOnFourthTick(cfg: Config, send: Irsnd, level: Level, timer: Regs, oracle: nat -> EncoderStep)
    requires cfg.mode != ReceiveOnly
    ensures var s := LegacyInitial(send, level, timer).(busy := true);
            CallIrsnd !in LegacyRun(cfg, s, oracle, 3).events
            && LegacyRun(cfg, s, oracle, 4).state.calls == 1
  {
    var s := LegacyInitial(send, level, timer).(busy := true);
    assert LegacyRun(cfg, s, oracle, 1).state.divider == 3;
    assert LegacyRun(cfg, s, oracle, 2).state.divider == 2;
    assert LegacyRun(cfg, s, oracle, 3).state.divider == 1;
  }
}

=== FILE: pin_change.dfy ===
/** The pin-change-interrupt adapter of irmpPinChangeInterrupt.cpp.h: instead of sampling the
    input on a fixed timer, the decoder is driven from input edges. Each edge converts the time
    since the previous edge into 64 microsecond ticks, adds them to one of the decoder's
    accumulators and calls the decoder, plus up to five extra calls that simulate the end of a
    frame. The decoder (`irmp_ISR`) is an arbitrary state transformer here. */
module PinChange {
  import opened Bits

  /** The decoder's current protocol parameters that the adapter reads (`irmp_param`). */
  datatype Param = Param(completeLen: nat, stopBit: nat, pause1LenMax: nat, isManchester: bool)

  /** The decoder variables the adapter reads or writes. */
  datatype Decoder = Decoder(
    pulseTime: nat,          // irmp_pulse_time
    pauseTime: nat,          // irmp_pause_time
    keyRepetitionLen: nat,   // key_repetition_len
    startBitDetected: bool,  // irmp_start_bit_detected
    irDetected: bool,        // irmp_ir_detected
    bit: nat,                // irmp_bit
    param: Param)

  /** Why the adapter called the decoder. */
  datatype Reason = Edge | StopBit | FrameEnd | Manchester

  /** A decoder call together with the decoder state it was handed. */
  datatype IsrCall = IsrCall(reason: Reason, seen: Decoder)

  /** `irmp_last_change_micros` and the decoder. */
  datatype Pci = Pci(lastChange: u32, dec: Decoder)

  datatype PciOut = PciOut(state: Pci, calls: seq<IsrCall>)

  /** The only decoder rate the adapter compiles for (`F_INTERRUPTS`), i.e. 64 microseconds a tick. */
  const FInterrupts: nat := 15_625
  const MicrosPerTick: nat := 1_000_000 / FInterrupts

  /** Interval to ticks with 32-bit shifts: `(delta << 2) >> 8`, then one less unless zero. */
  function TicksFromDelta(delta: u32): (r: nat)
    ensures var whole := (delta % 0x4000_0000) / MicrosPerTick;
            r == if whole == 0 then 0 else whole - 1
    ensures delta < 0x4000_0000 ==> r == if delta < MicrosPerTick then 0 else delta / MicrosPerTick - 1
    ensures r < 0x100_0000
  {
    ShiftTicks(delta);
    var t := ToU32(delta * 4) / 0x100;
    if t != 0 then t - 1 else t
  }

  /** The left shift drops the top two bits, and shifting right by 8 after it is dividing by 64. */
  lemma ShiftTicks(delta: u32)
    ensures ToU32(delta * 4) / 0x100 == (delta % 0x4000_0000) / 64
  {
    var m := delta % 0x4000_0000;
    var q := delta / 0x4000_0000;
    assert delta * 4 == q * 0x1_0000_0000 + 4 * m;
    DivUnique(delta * 4, 0x1_0000_0000, q, 4 * m);
    var a := m / 64;
    var b := m % 64;
    assert 4 * m == a * 0x100 + 4 * b;
    DivUnique(4 * m, 0x100, a, 4 * b);
  }

  /** The unsigned subtraction yields the true elapsed time even when `micros()` wrapped in between,
      as long as less than 2^32 microseconds passed. */
  lemma ElapsedAcrossWrap(last: u32, elapsed: nat)
    requires elapsed < 0x1_0000_0000
    ensures ToU32(ToU32(last + elapsed) - last) == elapsed
  {
    var now := ToU32(last + elapsed);
    if last + elapsed < 0x1_0000_0000 {
      assert now == last + elapsed;
    } else {
      DivUnique(last + elapsed, 0x1_0000_0000, 1, last + elapsed - 0x1_0000_0000);
      DivUnique(now - last, 0x1_0000_0000, -1, elapsed);
    }
  }

  /** The accumulator update: a rising input ends a pulse, a falling input ends a pause; before a
      start bit the pause is the gap between repetitions, clamped to 16 bits. */
  function Accumulate(d: Decoder, input: bool, ticks: nat): (r: Decoder)
    ensures input ==> r == d.(pulseTime := d.pulseTime + ticks)
    ensures !input && !d.startBitDetected ==>
      r == d.(keyRepetitionLen := if ticks > 0xFFFF then 0xFFFF else ticks)
    ensures !input && d.startBitDetected ==> r == d.(pauseTime := d.pauseTime + ticks)
    ensures r.keyRepetitionLen <= 0xFFFF || r.keyRepetitionLen == d.keyRepetitionLen
  {
    if input then d.(pulseTime := d.pulseTime + ticks)
    else if !d.startBitDetected then d.(keyRepetitionLen := if ticks > 0xFFFF then 0xFFFF else ticks)
    else d.(pauseTime := d.pauseTime + ticks)
  }

  /** The decoder state after a run of calls, starting from `d`. */
  function After(isr: Decoder -> Decoder, d: Decoder, calls: seq<IsrCall>): Decoder {
    if |calls| == 0 then d else isr(calls[|calls| - 1].seen)
  }

  /** The stop-bit simulation applies to a frame of full length waiting for its stop bit. */
  predicate WaitsForStopBit(d: Decoder) {
    d.startBitDetected && d.bit == d.param.completeLen && d.param.stopBit == 1
  }

  predicate FrameComplete(d: Decoder) {
    d.startBitDetected && d.bit > 0 && d.bit == d.param.completeLen
  }

  /** A Manchester frame one or two bits short of complete, judged by the last interval. */
  predicate ManchesterEnding(d: Decoder, ticks: nat) {
    ((d.bit + 1 == d.param.completeLen && ticks < d.param.pause1LenMax)
      || (d.bit + 2 == d.param.completeLen && ticks > d.param.pause1LenMax))
    && d.param.isManchester && d.startBitDetected
  }

  /** The three groups of extra calls that simulate the end of a frame. */
  datatype Ending = Ending(stop: seq<IsrCall>, frame: seq<IsrCall>, manchester: seq<IsrCall>)

  /** The extra calls in the order they are made. */
  function Calls(e: Ending): seq<IsrCall> {
    e.stop + e.frame + e.manchester
  }

  /** The end-of-frame simulation after the edge call (`d1` is the decoder after it), made on a
      rising input while nothing is decoded yet; each condition is judged on the decoder as the
      previous calls left it. */
  function SimulateEnd(manchester: bool, d1: Decoder, ticks: nat, isr: Decoder -> Decoder): (r: Ending)
    // stop bit: one call, with the pulse time decremented but never below zero
    ensures WaitsForStopBit(d1) ==>
      r.stop == [IsrCall(StopBit, d1.(pulseTime := if d1.pulseTime > 0 then d1.pulseTime - 1 else 0))]
    ensures !WaitsForStopBit(d1) ==> r.stop == []
    // frame end: one call on a complete frame
    ensures var d2 := After(isr, d1, r.stop);
            (FrameComplete(d2) ==> r.frame == [IsrCall(FrameEnd, d2)]) && (!FrameComplete(d2) ==> r.frame == [])
    // Manchester: three calls or none; the first sees the synthetic pause of two half-bit maxima
    ensures var d3 := After(isr, After(isr, d1, r.stop), r.frame);
            (manchester && ManchesterEnding(d3, ticks) ==>
              |r.manchester| == 3
              && r.manchester[0] == IsrCall(Manchester, d3.(pauseTime := 2 * d3.param.pause1LenMax))
              && r.manchester[1] == IsrCall(Manchester, isr(r.manchester[0].seen))
              && r.manchester[2] == IsrCall(Manchester, isr(r.manchester[1].seen)))
            && (!(manchester && ManchesterEnding(d3, ticks)) ==> r.manchester == [])
    // at most five extra calls (two without Manchester support), none of them an edge call
    ensures |Calls(r)| <= 5 && (!manchester ==> |Calls(r)| <= 2)
    ensures forall i :: 0 <= i < |Calls(r)| ==> Calls(r)[i].reason != Edge
  {
    var stop :=
      if WaitsForStopBit(d1) then [IsrCall(StopBit, d1.(pulseTime := if d1.pulseTime > 0 then d1.pulseTime - 1 else 0))]
      else [];
    var d2 := After(isr, d1, stop);
    var frame := if FrameComplete(d2) then [IsrCall(FrameEnd, d2)] else [];
    var d3 := After(isr, d2, frame);
    if manchester && ManchesterEnding(d3, ticks) then
      var m0 := d3.(pauseTime := 2 * d3.param.pause1LenMax);
      var m1 := isr(m0);
      var m2 := isr(m1);
      Ending(stop, frame, [IsrCall(Manchester, m0), IsrCall(Manchester, m1), IsrCall(Manchester, m2)])
    else
      Ending(stop, frame, [])
  }

  /** `irmp_PCI_ISR`: one input edge at time `micros` with the new input level `input`
      (`manchester` is `IRMP_SUPPORT_MANCHESTER`). */
  function PciIsr(manchester: bool, s: Pci, input: bool, micros: u32, isr: Decoder -> Decoder): (r: PciOut)
    ensures r.state.lastChange == micros
    // exactly one accumulator changes before the first call, which is unconditional
    ensures var ticks := TicksFromDelta(ToU32(micros - s.lastChange));
            1 <= |r.calls| <= 6 && r.calls[0] == IsrCall(Edge, Accumulate(s.dec, input, ticks))
    ensures forall i :: 1 <= i < |r.calls| ==> r.calls[i].reason != Edge
    // extra calls only on a rising input while nothing has been decoded
    ensures |r.calls| > 1 ==> input && !isr(r.calls[0].seen).irDetected
    ensures !input ==> |r.calls| == 1
    ensures !manchester ==> |r.calls| <= 3
    ensures r.state.dec == isr(r.calls[|r.calls| - 1].seen)
    // on a rising input while nothing is decoded the extra calls are the end-of-frame simulation
    ensures input && !isr(r.calls[0].seen).irDetected ==>
      var e := SimulateEnd(manchester, isr(r.calls[0].seen), TicksFromDelta(ToU32(micros - s.lastChange)), isr);
      r.calls == [r.calls[0]] + Calls(e)
  {
    var delta := ToU32(micros - s.lastChange);
    var ticks := TicksFromDelta(delta);
    var d0 := Accumulate(s.dec, input, ticks);
    var d1 := isr(d0);
    if !d1.irDetected && input then
      var e := SimulateEnd(manchester, d1, ticks, isr);
      PciOut(Pci(micros, After(isr, d1, Calls(e))), [IsrCall(Edge, d0)] + Calls(e))
    else
      PciOut(Pci(micros, d1), [IsrCall(Edge, d0)])
  }

  /** A frame of full length waiting for its stop bit gets its stop-bit call right after the edge
      call, on a rising input while nothing has been decoded. */
  lemma WaitingFrameGetsStopBitCall(manchester: bool, s: Pci, micros: u32, isr: Decoder -> Decoder)
    requires var d1 := isr(Accumulate(s.dec, true, TicksFromDelta(ToU32(micros - s.lastChange))));
             !d1.irDetected && WaitsForStopBit(d1)
    ensures var d1 := isr(Accumulate(s.dec, true, TicksFromDelta(ToU32(micros - s.lastChange))));
            var r := PciIsr(manchester, s, true, micros, isr);
            |r.calls| >= 2
            && r.calls[1] == IsrCall(StopBit, d1.(pulseTime := if d1.pulseTime > 0 then d1.pulseTime - 1 else 0))
  {
    var r := PciIsr(manchester, s, true, micros, isr);
    var e := SimulateEnd(manchester, isr(r.calls[0].seen), TicksFromDelta(ToU32(micros - s.lastChange)), isr);
    assert r.calls[1] == Calls(e)[0];
  }

  /** A rising edge that comes `elapsed` microseconds after the previous one (less than 2^30, with
      `micros()` possibly wrapping in between) adds one less than the number of whole 64
      microsecond ticks in the interval to the pulse time seen by the decoder. */
  lemma RisingEdgeAddsElapsedTicks(manchester: bool, s: Pci, elapsed: nat, isr: Decoder -> Decoder)
    requires elapsed < 0x4000_0000
    ensures var r := PciIsr(manchester, s, true, ToU32(s.lastChange + elapsed), isr);
            r.calls[0].seen.pulseTime == s.dec.pulseTime + (if elapsed < 64 then 0 else elapsed / 64 - 1)
            && r.calls[0].seen.pauseTime == s.dec.pauseTime
  {
    ElapsedAcrossWrap(s.lastChange, elapsed);
  }
}

=== FILE: timer2.dfy ===
/** The receive/send timer of the ATmega328 (Timer 2) as IRTimer.hpp programs it: compare-value and
    prescaler selection, and saving and restoring the timer registers around a send. */
module Timer2 {
  import opened Bits

  /** Lowest clock the AVR timer code accepts (`#error` below 8 MHz). */
  const MinCpuHz: nat := 8_000_000

  /** Bit masks of the ATmega328P Timer 2 registers used here (datasheet register map). */
  const WGM21: u8 := 0x02   // TCCR2A: clear timer on compare match (CTC)
  const CS20: u8 := 0x01    // TCCR2B: clock / 1
  const CS21: u8 := 0x02    // TCCR2B: clock / 8
  const OCIE2B: u8 := 0x04  // TIMSK2: compare match B interrupt enable

  datatype Prescale = Div1 | Div8

  function Divisor(p: Prescale): nat {
    if p == Div1 then 1 else 8
  }

  /** A timer setting: prescaler and compare value before it is narrowed to the 8-bit register. */
  datatype Setup = Setup(prescale: Prescale, top: int)

  /** Compare value with rounded division (IRTimer.hpp): no prescaler while F_CPU/F fits the 8-bit
      counter, otherwise prescale 8 with (top + 1) the multiple of F nearest to F_CPU/8. */
  function CompareRounded(fcpu: nat, freq: nat): (r: Setup)
    requires freq > 0
    ensures r.prescale == Div1 <==> fcpu / freq <= 256
    ensures r.prescale == Div1 ==> r.top <= 255 && (r.top + 1) * freq <= fcpu < (r.top + 2) * freq
    ensures r.prescale == Div8 ==> (r.top + 1) * freq <= fcpu / 8 + freq / 2 < (r.top + 2) * freq
  {
    DivBracket(fcpu, freq);
    DivBracket(fcpu / 8 + freq / 2, freq);
    if fcpu / freq <= 256 then Setup(Div1, fcpu / freq - 1)
    else Setup(Div8, (fcpu / 8 + freq / 2) / freq - 1)
  }

  /** The values the source comments quote for a 16 MHz clock. */
  lemma CompareRoundedAt16MHz()
    ensures CompareRounded(16_000_000, 15_000) == Setup(Div8, 132)
    ensures CompareRounded(16_000_000, 38_000) == Setup(Div8, 52)
    ensures CompareRounded(16_000_000, 76_000) == Setup(Div1, 209)
  {
  }

  /** For every receive rate the library supports (10 to 20 kHz) on every AVR clock from 8 to 20 MHz,
      prescale 8 is chosen and the compare value fits the 8-bit register. */
  lemma ReceiveRatesFitRegister(fcpu: nat, freq: nat)
    requires MinCpuHz <= fcpu <= 20_000_000
    requires 10_000 <= freq <= 20_000
    ensures CompareRounded(fcpu, freq).prescale == Div8
    ensures 0 <= CompareRounded(fcpu, freq).top <= 255
  {
    var q := fcpu / freq;
    DivBracket(fcpu, freq);
    if q <= 256 {
      MulMono(q + 1, 257, freq);
    }
    var r := CompareRounded(fcpu, freq);
    if r.top > 255 {
      MulMono(257, r.top + 1, freq);
      MulMono(10_000, freq, 257);
    }
    if r.top < 0 {
      MulMono(r.top + 2, 1, freq);
    }
  }

  /** The Timer 2 registers the ATmega328 branch touches. */
  datatype Regs = Regs(tccr2a: u8, tccr2b: u8, ocr2a: u8, ocr2b: u8, timsk2: u8, tcnt2: u8)

  /** Prescaler encoded in TCCR2B's clock-select bits (only the two settings used here). */
  function PrescalerOf(tccr2b: u8): nat {
    if tccr2b == CS20 then 1 else if tccr2b == CS21 then 8 else 0
  }

  /** Interrupt period in CPU cycles of a timer running in CTC mode. */
  function PeriodCycles(t: Regs): nat {
    PrescalerOf(t.tccr2b) * (t.ocr2a + 1)
  }

  /** `initIRTimerForReceive` / `initIRTimerForSend`, ATmega328 branch: CTC mode, prescaler and
      compare value from `CompareRounded`, counter cleared, compare-match-B interrupt enabled. */
  function Init(fcpu: nat, freq: nat): (r: Regs)
    requires freq > 0
    ensures r.tccr2a == WGM21 && r.timsk2 == OCIE2B && r.tcnt2 == 0 && r.ocr2b == r.ocr2a
    ensures freq <= fcpu && fcpu / freq <= 256 ==> PeriodCycles(r) == fcpu / freq
    ensures fcpu / freq > 256 && CompareRounded(fcpu, freq).top <= 255 ==>
      PeriodCycles(r) == 8 * ((fcpu / 8 + freq / 2) / freq)
  {
    var s := CompareRounded(fcpu, freq);
    assert freq <= fcpu && s.prescale == Div1 ==> 0 <= s.top by {
      if freq <= fcpu && s.top < 0 {
        MulMono(s.top + 2, 1, freq);
      }
    }
    assert s.prescale == Div8 ==> 0 <= s.top by {
      if s.prescale == Div8 && s.top < 0 {
        var q := fcpu / freq;
        DivBracket(fcpu, freq);
        MulMono(257, q, freq);
        MulMono(s.top + 2, 1, freq);
      }
    }
    var ocr := ToU8(s.top);
    Regs(WGM21, if s.prescale == Div1 then CS20 else CS21, ocr, ocr, OCIE2B, 0)
  }

  /** The saved copy of the timer configuration (`sTimerTCCRA` ... `sTimerTIMSK`). */
  datatype Snapshot = Snapshot(tccrA: u8, tccrB: u8, ocr: u8, ocrB: u8, timsk: u8)

  /** `storeIRTimer`, ATmega328 branch. */
  function Store(t: Regs): Snapshot {
    Snapshot(t.tccr2a, t.tccr2b, t.ocr2a, t.ocr2b, t.timsk2)
  }

  /** `restoreIRTimer`, ATmega328 branch: every saved register is written back; the counter is not. */
  function Restore(t: Regs, s: Snapshot): (r: Regs)
    ensures r.tcnt2 == t.tcnt2
  {
    Regs(s.tccrA, s.tccrB, s.ocr, s.ocrB, s.timsk, t.tcnt2)
  }

  /** `disableIRTimerInterrupt`, ATmega328 branch. */
  function DisableInterrupt(t: Regs): (r: Regs)
    ensures r.timsk2 == 0
    ensures r.tccr2a == t.tccr2a && r.tccr2b == t.tccr2b && r.ocr2a == t.ocr2a && r.ocr2b == t.ocr2b
    ensures r.tcnt2 == t.tcnt2
  {
    t.(timsk2 := 0)
  }

  /** Two register sets agree on everything `storeIRTimer` saves. */
  predicate SameConfig(a: Regs, b: Regs) {
    a.tccr2a == b.tccr2a && a.tccr2b == b.tccr2b && a.ocr2a == b.ocr2a && a.ocr2b == b.ocr2b && a.timsk2 == b.timsk2
  }

  /** Restoring a snapshot reproduces the stored configuration whatever happened in between,
      and restoring onto the very registers stored changes nothing. */
  lemma StoreRestoreRoundTrip(t: Regs, later: Regs)
    ensures SameConfig(Restore(later, Store(t)), t)
    ensures Restore(t, Store(t)) == t
  {
  }

  /** A send session -- store, reprogram for the send rate, send, restore -- leaves the receive
      configuration as it found it. Restoring straight onto the send setup gives back the receive
      setup exactly (both clear the counter); after the timer has run while sending only the
      free-running counter differs. */
  lemma SendSessionRestoresReceiveTimer(fcpu: nat, receiveFreq: nat, sendFreq: nat, whileSending: Regs)
    requires receiveFreq > 0 && sendFreq > 0
    ensures var receive := Init(fcpu, receiveFreq);
            var saved := Store(receive);
            Restore(Init(fcpu, sendFreq), saved) == receive
            && SameConfig(Restore(whileSending, saved), receive)
            && Restore(whileSending, saved).tcnt2 == whileSending.tcnt2
  {
  }
}

=== FILE: timer2_legacy.dfy ===
/** The older Timer 2 set-up of IRTimer.cpp.h: the same register layout and save/restore as
    IRTimer.hpp, but the prescale-8 compare value uses truncating division. */
module Timer2Legacy {
  import opened Bits
  import opened Timer2

  /** Compare value with truncating division: prescale 1 while F_CPU/F fits the 8-bit counter,
      otherwise prescale 8 with (top + 1) the largest multiple of F not above F_CPU/8. */
  function CompareTruncated(fcpu: nat, freq: nat): (r: Setup)
    requires freq > 0
    ensures r.prescale == Div1 <==> fcpu / freq <= 256
    ensures r.prescale == Div1 ==> r.top <= 255 && (r.top + 1) * freq <= fcpu < (r.top + 2) * freq
    ensures r.prescale == Div8 ==> (r.top + 1) * freq <= fcpu / 8 < (r.top + 2) * freq
  {
    DivBracket(fcpu, freq);
    DivBracket(fcpu / 8, freq);
    if fcpu / freq <= 256 then Setup(Div1, fcpu / freq - 1)
    else Setup(Div8, fcpu / 8 / freq - 1)
  }

  /** The values at 16 MHz: 132 for 15 kHz as in IRTimer.hpp, but 51 instead of 52 for 38 kHz. */
  lemma CompareTruncatedAt16MHz()
    ensures CompareTruncated(16_000_000, 15_000) == Setup(Div8, 132)
    ensures CompareTruncated(16_000_000, 38_000) == Setup(Div8, 51)
    ensures CompareRounded(16_000_000, 38_000).top == CompareTruncated(16_000_000, 38_000).top + 1
    ensures CompareTruncated(16_000_000, 76_000) == Setup(Div1, 209)
  {
  }

  /** The two variants always pick the same prescaler; with prescale 1 they agree, with prescale 8
      the rounded compare value is the truncated one or one more. */
  lemma RoundedIsTruncatedOrNext(fcpu: nat, freq: nat)
    requires freq > 0
    ensures CompareRounded(fcpu, freq).prescale == CompareTruncated(fcpu, freq).prescale
    ensures CompareRounded(fcpu, freq).prescale == Div1 ==> CompareRounded(fcpu, freq) == CompareTruncated(fcpu, freq)
    ensures CompareTruncated(fcpu, freq).top <= CompareRounded(fcpu, freq).top <= CompareTruncated(fcpu, freq).top + 1
  {
    var t := CompareTruncated(fcpu, freq);
    var r := CompareRounded(fcpu, freq);
    if t.prescale == Div8 {
      if r.top < t.top {
        MulMono(r.top + 2, t.top + 1, freq);
      }
      if r.top > t.top + 1 {
        MulMono(t.top + 2, r.top, freq);
      }
    }
  }

  /** Truncation never makes the interrupt slower than requested; rounding keeps the compare
      period within half a step of the exact one. */
  lemma TruncatedNeverSlowRoundedNearest(fcpu: nat, freq: nat)
    requires freq > 0 && fcpu / freq > 256
    ensures (CompareTruncated(fcpu, freq).top + 1) * freq <= fcpu / 8
    ensures fcpu / 8 - freq / 2 <= (CompareRounded(fcpu, freq).top + 1) * freq <= fcpu / 8 + freq / 2
  {
  }

  /** `initIRTimerForReceive` / `initIRTimerForSend`, ATmega328 branch of IRTimer.cpp.h. */
  function InitLegacy(fcpu: nat, freq: nat): (r: Regs)
    requires freq > 0
    ensures r.tccr2a == WGM21 && r.timsk2 == OCIE2B && r.tcnt2 == 0 && r.ocr2b == r.ocr2a
    ensures freq <= fcpu && fcpu / freq <= 256 ==> PeriodCycles(r) == fcpu / freq
    ensures fcpu / freq > 256 && CompareTruncated(fcpu, freq).top <= 255 ==>
      PeriodCycles(r) == 8 * (fcpu / 8 / freq)
  {
    var s := CompareTruncated(fcpu, freq);
    assert freq <= fcpu && s.prescale == Div1 ==> 0 <= s.top by {
      if freq <= fcpu && s.top < 0 {
        MulMono(s.top + 2, 1, freq);
      }
    }
    assert s.prescale == Div8 ==> 0 <= s.top by {
      if s.prescale == Div8 && s.top < 0 {
        var q := fcpu / freq;
        DivBracket(fcpu, freq);
        MulMono(257, q, freq);
        MulMono(s.top + 2, 1, freq);
      }
    }
    var ocr := ToU8(s.top);
    Regs(WGM21, if s.prescale == Div1 then CS20 else CS21, ocr, ocr, OCIE2B, 0)
  }

  /** The generic AVR save and restore of IRTimer.cpp.h copy the same five registers: a send
      session between them leaves the legacy receive configuration as it was. */
  lemma LegacySendSessionRestoresReceiveTimer(fcpu: nat, receiveFreq: nat, sendFreq: nat, whileSending: Regs)
    requires receiveFreq > 0 && sendFreq > 0
    ensures var receive := InitLegacy(fcpu, receiveFreq);
            Restore(InitLegacy(fcpu, sendFreq), Store(receive)) == receive
            && SameConfig(Restore(whileSending, Store(receive)), receive)
  {
  }
}
